=== FILE: README.md ===
# Slide-deck composition for the AI document generator

This project models the backend's presentation generator and proves properties of the model. The generator is `generate_pptx` in `backend/utils/pptx_generator.py`. It takes a topic, a list of sections (title plus optional content) and a theme name. It produces:

- one title slide carrying the topic;
- one content slide per section, in order;
- on each content slide, a heading made of a keyword icon, two spaces and the title;
- bullet lines cleaned of markdown emphasis and leading bullets;
- a slide number `1..N`;
- decorative shapes at fixed positions on a 10 x 7.5 inch canvas (all but the bottom bar of `add_decorative_bar`, which is not modelled).

It also models two pieces of pure string logic from `backend/main.py`:

- the download file name of `export_document`;
- the outline parser of `generate_template`, which turns the language model's numbered reply into template sections.

Modules, in dependency order:

- `Wrappers`: `Option`.
- `Strings`: the Python `str` operations the code uses:
  - `strip()`, modelled through its two halves `TrimStart` and `TrimEnd` over the `isspace` set;
  - `split('\n')` and its inverse `join`;
  - `in` on substrings, `lower`;
  - `str(int)` and `replace`;
  - `IndexOf`, the position of the first `.`, which is where `split('.', 1)[-1]` cuts.
- `Themes`: the `THEMES` catalogue and its fallback.
- `Icons`: `ICON_MAP` as an ordered table, and `get_icon_for_title`.
- `Normalize`: the three regular-expression passes of `clean_text_formatting`, `strip`, and the line split of the content box.
- `Layout`: the fixed rectangles, in integer hundredths of an inch.
- `Deck`: the slide sequence. It is generic in the two per-section computations (icon, bullet lines).
- `Generator`: `generate_pptx` itself, which instantiates `Deck` with `Icons` and `Normalize`.
- `Api`: the export file name, the response headers, and the template parser.

The decorative blocks are wrapped in `try/except` in the source. The model makes what the library does there a parameter: a `Faults` oracle maps a slide index and a decorative part to `Drawn`, `Unstyled` or `Absent`.

- `Drawn`: the block ran to the end.
- `Unstyled`: the block raised after adding its shape.
- `Absent`: the block raised before adding its shape.

The mandatory texts are added outside any `try`: the topic, the subtitle, the heading and the bullet lines. The model proves they do not depend on the oracle.

Two behaviours of the code shape the model:

- `generate_pptx` has no contrast adaptation for dark themes. Every text colour comes straight from the palette.
- The content card and text box are added when `content` is non-empty (line 377), even if it is only whitespace. Such a slide gets a card and an empty text box.

## Model

| member | source | states |
|---|---|---|
| Themes.EffectiveThemeId | backend/utils/pptx_generator.py:223-224 | the theme name actually used is always a catalogue key: the given name when it is one, `professional_blue` otherwise |
| Themes.ResolveTheme | backend/utils/pptx_generator.py:223-225 | the palette used is always one of the catalogue's palettes, and it has a name |
| Themes.CatalogueKeys | backend/utils/pptx_generator.py:12-53 | the catalogue has exactly the five theme names, and the default is among them |
| Themes.PalettesDistinct | backend/utils/pptx_generator.py:12-53 | two different theme names give different palettes |
| Themes.KnownIdResolves | backend/utils/pptx_generator.py:223-225 | a known theme name resolves to its own catalogue entry |
| Themes.DefaultPalette | backend/utils/pptx_generator.py:13-20 | `professional_blue` resolves to the Professional Blue palette |
| Themes.ResolvesToDefaultIff | backend/utils/pptx_generator.py:223-225 | the Professional Blue palette is used exactly when the name is `professional_blue` or not in the catalogue |
| Themes.EffectiveIdIdempotent | backend/utils/pptx_generator.py:223-225 | resolving a name that was already resolved changes nothing, and the palette of the resolved name is the palette of the original |
| Icons.Fallback | backend/utils/pptx_generator.py:156-163 | with no keyword match, the opening icon when an opening word occurs, else the closing icon when a closing word occurs, else the thanks icon when a thanks word occurs; empty exactly when no word of the three groups occurs |
| Icons.FirstMatchFrom | backend/utils/pptx_generator.py:151-153 | the scan from entry `k` finds the first entry at or after `k` whose keyword occurs in the title, or reports that none occurs |
| Icons.IconForTitle | backend/utils/pptx_generator.py:146-163 | the icon is the glyph of the first table keyword occurring in the lower-cased title; when no keyword occurs, the opening, closing and thanks groups are tried in that order, and failing all three the icon is empty |
| Icons.FirstKeywordUnique | backend/utils/pptx_generator.py:151-153 | at most one table entry is the first match |
| Icons.IconOfFirstKeyword | backend/utils/pptx_generator.py:151-153 | when entry `j` is the first match, the icon is entry `j`'s glyph |
| Icons.EarlierKeywordWins | backend/utils/pptx_generator.py:151-153 | when keyword `k` occurs in the title, the icon comes from an entry at or before `k` |
| Icons.IconEmptyIff | backend/utils/pptx_generator.py:151-163 | the icon is empty exactly when no table keyword and no fallback word occurs in the lower-cased title |
| Icons.TrainingGetsRobot | backend/utils/pptx_generator.py:148-153 | a title that lower-cases to `training` gets the robot glyph of `ai`, not the glyph of `training` |
| Icons.TrainingMissesBeforeAi | backend/utils/pptx_generator.py:56-83 | `ai` is the first table keyword contained in `training` |
| Icons.ShadowedEntries | backend/utils/pptx_generator.py:66-140 | no title ever selects the `marketing` or `training` entries, because `market` and `ai` come earlier and occur inside them |
| Icons.ShadowingKeywords | backend/utils/pptx_generator.py:66-140 | the positions of `training`, `ai`, `marketing` and `market` in the table, and the containment that shadows the later two |
| Strings.TrimStart | backend/utils/pptx_generator.py:412 | the leading half of `strip()` removes exactly a leading run of `isspace` characters, stopping at a non-space |
| Strings.TrimEnd | backend/utils/pptx_generator.py:412 | the trailing half of `strip()` removes exactly a trailing run of `isspace` characters, stopping at a non-space |
| Strings.Strip | backend/utils/pptx_generator.py:176 | `strip` yields a stripped string framed in the input by whitespace on both sides |
| Strings.StripUnique | backend/utils/pptx_generator.py:176 | any stripped string framed by whitespace in the input is the result of `strip` |
| Strings.StripEmptyIff | backend/utils/pptx_generator.py:412 | `strip` gives the empty string exactly for all-whitespace input |
| Strings.StripIdempotent | backend/utils/pptx_generator.py:412 | stripping twice equals stripping once |
| Strings.Split | backend/utils/pptx_generator.py:412 | `split('\n')` gives at least one part, and no part contains the separator |
| Strings.JoinSplit | backend/utils/pptx_generator.py:412 | joining the parts of a split with the separator restores the text |
| Strings.SplitJoin | backend/utils/pptx_generator.py:412 | splitting the join of separator-free parts restores the parts |
| Strings.SplitAround | backend/utils/pptx_generator.py:412 | splitting around a separator splits each side separately |
| Strings.Contains | backend/utils/pptx_generator.py:152 | Python's `k in s` for strings, scanned position by position; characterised by `Strings.ContainsIff` |
| Strings.ContainsIff | backend/utils/pptx_generator.py:152 | the substring test holds exactly when the keyword occurs at some position |
| Strings.ContainsTransitive | backend/utils/pptx_generator.py:152 | a keyword of a substring of the title is a keyword of the title |
| Strings.Lower | backend/utils/pptx_generator.py:148 | lower-casing leaves no ASCII capital letters and never shortens the title |
| Strings.LowerIdempotent | backend/utils/pptx_generator.py:148 | lower-casing twice equals lower-casing once |
| Strings.NatToString | backend/utils/pptx_generator.py:441 | `str(i)` gives one or more decimal digits, with no leading zero unless the number is zero |
| Strings.DecimalRoundTrip | backend/utils/pptx_generator.py:441 | reading back the digits of `str(i)` gives `i` |
| Strings.NatToStringInjective | backend/utils/pptx_generator.py:441 | different numbers give different `str(i)` |
| Strings.IndexOf | backend/main.py:233 | the position of the first occurrence of the character |
| Strings.ReplaceChar | backend/main.py:165 | `replace` keeps the length and replaces exactly the occurrences of the character |
| Normalize.StripEmphasis | backend/utils/pptx_generator.py:168-171 | a `**x**` or `*x*` pass only removes asterisks: with the asterisks deleted, its output equals its input, and a text without asterisks is unchanged |
| Normalize.FindClose | backend/utils/pptx_generator.py:168-171 | the non-greedy `.+?` ends at the first closing delimiter on the line, and no earlier position closes |
| Normalize.EmphasisPair | backend/utils/pptx_generator.py:168-171 | a delimited run `d x d` without asterisks or line breaks is replaced by `x` |
| Normalize.EmphasisUnclosed | backend/utils/pptx_generator.py:168-171 | an opening delimiter with no closing one before the line break is kept |
| Normalize.EmphasisPlain | backend/utils/pptx_generator.py:168-171 | text without asterisks is copied through unchanged |
| Normalize.StripBulletsFrom | backend/utils/pptx_generator.py:173-174 | the MULTILINE bullet pass over the rest of the text, given whether `^` holds at its front; never lengthens the text; its behaviour on every input follows line by line from `BulletsAround` (the first line is not a bare bullet at a line start) and `BareBulletSwallowsSpace` (it is one), with `BulletsOneLine` and `BulletsMidLine` for a last line without a break; `BareBulletJoinsNextLine` and `BulletsPlain` are special cases |
| Normalize.StripBullets | backend/utils/pptx_generator.py:173-174 | the bullet pass over the whole text, with `^` holding at the front; never lengthens the text |
| Normalize.BulletsPlain | backend/utils/pptx_generator.py:173-174 | a text containing no `*`, `-` or `•` passes the bullet pass unchanged, wherever it starts |
| Normalize.BulletsOneLine | backend/utils/pptx_generator.py:174 | on one line, the bullet pass removes a leading `*`, `-` or `•` and the whitespace after it, and nothing else |
| Normalize.BulletsAround | backend/utils/pptx_generator.py:174 | the bullet pass works line by line whenever no line is a bare bullet |
| Normalize.BareBulletJoinsNextLine | backend/utils/pptx_generator.py:174 | when the next line does not start with whitespace, a line holding only a bullet and spaces is removed together with its one line break, and the next line is again a line start |
| Normalize.BareBulletSwallowsSpace | backend/utils/pptx_generator.py:174 | for any text after it, a line holding only a bullet and spaces is removed together with its line break and then every blank line and the indentation that follow, because the greedy `\s*` runs across line breaks; `^` holds where the run stops exactly when the last character it took is a line break |
| Normalize.BulletsMidLine | backend/utils/pptx_generator.py:174 | away from a line start, a text with no line break passes the bullet pass unchanged |
| Normalize.CleanTextFormatting | backend/utils/pptx_generator.py:165-176 | the cleaned text has no leading or trailing whitespace |
| Normalize.StrippedNonBlank | backend/utils/pptx_generator.py:412 | the kept lines are no more than the parts, each non-empty and stripped |
| Normalize.Kept | backend/utils/pptx_generator.py:412 | a part contributes its stripped self, or nothing exactly when it is all whitespace |
| Normalize.BulletLines | backend/utils/pptx_generator.py:412 | the lines of a cleaned text: no more than its `\n`-separated parts, each non-empty and stripped; `BulletLinesAround` and `BulletLinesOneLine` fix them line by line |
| Normalize.ContentLines | backend/utils/pptx_generator.py:411-412 | the text box's lines for a section's content: each non-empty and stripped; `CleanExample` gives them exactly for one markdown shape (a line with a bold and an italic word, a `- ` line, a `* ` line and a trailing blank line) and `CleanLiteral` for one literal of that shape; `ThreeLines` gives the split of three clean lines |
| Normalize.StrippedNonBlankAppend | backend/utils/pptx_generator.py:412 | the filter keeps the order of the parts: filtering a concatenation concatenates the filtered pieces |
| Normalize.BulletLinesAround | backend/utils/pptx_generator.py:412 | the lines of `a + "\n" + b` are the lines of `a` followed by those of `b` |
| Normalize.BulletLinesOneLine | backend/utils/pptx_generator.py:412 | a single line gives its stripped self, or nothing when it is blank |
| Normalize.ThreeLines | backend/utils/pptx_generator.py:412 | three clean lines joined by line breaks come back as those three lines, in order |
| Normalize.CleanExample | backend/utils/pptx_generator.py:165-176 | for any words meeting the stated requirements, `"**x**a*b*\n- m2\n* m3\n\n"` gives exactly the lines `x+a+b`, `m2`, `m3` |
| Normalize.CleanLiteral | backend/utils/pptx_generator.py:165-176 | `"**Bold** and *italic*\n- item one\n* item two\n\n"` gives exactly the lines `Bold and italic`, `item one`, `item two` |
| Layout.SubtitleFrame | backend/utils/pptx_generator.py:277-278 | the subtitle has the topic box's left edge and width and starts 0.2 inch below its bottom |
| Layout.LayoutContainment | backend/utils/pptx_generator.py:239-407 | the content box is inside the content card, the heading box inside the title bar, and both title-slide texts inside the card; the subtitle starts below the topic box; every modelled frame but the rotated overlay lies on the canvas |
| Layout.ContentSlideStacking | backend/utils/pptx_generator.py:314-439 | title bar, accent line, content card and slide number are stacked top to bottom without overlap |
| Layout.InsideTransitive | backend/utils/pptx_generator.py:379-407 | containment of frames is transitive |
| Deck.TitleText | backend/utils/pptx_generator.py:350-353 | the heading `f"{icon}  {title}"` when there is an icon, the bare title otherwise; its shape is stated by `Deck.TitleTextShape` and its inverse by `Deck.HeadingTitleRoundTrip` |
| Deck.TitleTextShape | backend/utils/pptx_generator.py:350-353 | a heading ends with the title; it is the bare title exactly when the icon is empty, and otherwise it is the icon, two spaces, then the title |
| Deck.HeadingTitleRoundTrip | backend/utils/pptx_generator.py:350-353 | removing the icon and the two spaces from a heading gives back the title |
| Deck.TitleTextInjective | backend/utils/pptx_generator.py:350-353 | with the same icon, different titles give different headings |
| Deck.BackgroundFill | backend/utils/pptx_generator.py:178-195 | the background is the two-stop theme gradient when the gradient block completes, otherwise the solid `bg_start` fallback |
| Deck.TitleSlideOf | backend/utils/pptx_generator.py:231-285 | the title slide shows the topic and the fixed subtitle, both inside the card, the subtitle below the topic |
| Deck.ContentDecor | backend/utils/pptx_generator.py:296-399 | a content slide has four decoration records when content is non-empty and three otherwise, each with the oracle's outcome (an `Absent` record stands for a shape that was never added); a content-card record is among them exactly when content is non-empty |
| Deck.ContentOf | backend/utils/pptx_generator.py:376 | `section.get('content', '')`: the content when the key is present, the empty string when it is missing; `Deck.EmptyContentSlide` gives the slide for the empty case |
| Deck.BodyOf | backend/utils/pptx_generator.py:376-414 | a text box exists exactly when content is non-empty; it holds the content's cleaned lines in the content frame |
| Deck.NumberOf | backend/utils/pptx_generator.py:433-447 | the slide-number box is present unless its block failed before adding it; its text is exactly `str(index)`: decimal digits without a leading zero that read back as the index |
| Deck.ContentSlideOf | backend/utils/pptx_generator.py:288-447 | a content slide's heading ends with the title, is the bare title exactly when the icon is empty, and gives back the title once the icon and two spaces are removed; it has bullet lines exactly when the content is non-empty, and they are the content's lines; its number is shown exactly when its block added the box, with text `str(index)` |
| Deck.Enumerate | backend/utils/pptx_generator.py:288 | the slides are made one per section, in order, with `enumerate`'s running index |
| Deck.EnumerateAppend | backend/utils/pptx_generator.py:288 | enumerating a concatenation enumerates its parts, the second continuing the index |
| Deck.Compose | backend/utils/pptx_generator.py:222-291 | the deck is 10 x 7.5 inches with the resolved theme and has `1 + len(sections)` slides: the title slide first, then slide `k` made from section `k` with index `k` |
| Deck.ContentSlideAt | backend/utils/pptx_generator.py:288-291 | slide `k` of the deck is the content slide of section `k` with number `k` |
| Deck.SlideSequence | backend/utils/pptx_generator.py:288-441 | slide `k`'s heading ends with section `k`'s title; it has bullet lines exactly when the content is non-empty, and those are the content's lines; its number is shown exactly when its block added the box, with text `str(k)` |
| Deck.TitleSlideText | backend/utils/pptx_generator.py:233-280 | the first slide is the title slide with the topic and the fixed subtitle |
| Deck.EmptyContentSlide | backend/utils/pptx_generator.py:376-377 | a section with empty content still gets a slide, with neither text box nor content card |
| Deck.SlideNumbersDistinct | backend/utils/pptx_generator.py:441 | two content slides never show the same number |
| Deck.FaultFreeSlide | backend/utils/pptx_generator.py:433-445 | when the library never raises, slide `k` carries the number box `str(k)` at 9, 7 inches in 14 pt and the theme's text colour, the gradient, and all decorations drawn |
| Deck.FaultsKeepText | backend/utils/pptx_generator.py:239-447 | what the decorative `try` blocks do never changes the number of slides, the topic, the subtitle, any heading or any bullet line |
| Deck.TitleSlideOnCanvas | backend/utils/pptx_generator.py:239-285 | every modelled frame on the title slide lies on the canvas |
| Deck.ContentSlideOnCanvas | backend/utils/pptx_generator.py:314-447 | every modelled frame on a content slide, except the overlay, lies on the canvas |
| Deck.FramesOnCanvas | backend/utils/pptx_generator.py:227-447 | every slide of the deck keeps its modelled frames on the canvas |
| Generator.GeneratePptx | backend/utils/pptx_generator.py:219-291 | the generated deck uses the resolved theme, has one slide more than there are sections, and opens with the topic |
| Generator.GeneratedHeading | backend/utils/pptx_generator.py:339-353 | slide `k`'s heading is `get_icon_for_title` of section `k`'s title, two spaces and the title, or the bare title when there is no icon |
| Generator.GeneratedLinesClean | backend/utils/pptx_generator.py:411-414 | slide `k`'s bullet lines are the cleaned content's lines, each non-empty and stripped |
| Generator.TrainingSlideHeading | backend/utils/pptx_generator.py:339-351 | a section titled `Training` is headed by the robot glyph, two spaces and the title |
| Api.Extension | backend/main.py:162-172 | the extension is `.docx` exactly for the `docx` document type, and `.pptx` otherwise |
| Api.ExportFilename | backend/main.py:165-172 | the file name is the topic with every space turned into `_`, followed by the extension; it contains no space |
| Api.FilenameRestoresTopic | backend/main.py:165-172 | for a topic without underscores, turning `_` back into spaces recovers the topic from the name |
| Api.FilenameEqualIff | backend/main.py:165-172 | two topics give the same file name exactly when they have the same length and agree at every position up to space versus underscore |
| Api.SameNameAgrees | backend/main.py:165-172 | topics sharing a file name agree position by position up to space versus underscore |
| Api.AgreeingTopicsShareName | backend/main.py:165-172 | topics agreeing up to space versus underscore share a file name |
| Api.FilenamesCollide | backend/main.py:165-172 | `a b` and `a_b` are exported under the same file name |
| Api.SectionsData | backend/main.py:150-157 | the request sections are passed on one for one with the same id, title and content |
| Api.ExportDocument | backend/main.py:162-186 | the download has the computed file name and the `attachment` disposition; it is a Word document with the Word media type exactly for `docx`, otherwise a presentation with the presentation media type |
| Api.ExportedDeck | backend/main.py:169-171 | the exported presentation always uses Professional Blue, because no theme is passed, and has one slide per section after the title slide |
| Api.Disposition | backend/main.py:184 | the header value is the 21-character prefix `attachment; filename=` followed by exactly the file name |
| Api.DispositionNamesFile | backend/main.py:184 | the `Content-Disposition` header is `attachment; filename=` followed by the space-free file name |
| Api.PrefixSlice | backend/main.py:231 | `lines[:n]` is a prefix: of length `n` capped at the number of lines for `n >= 0`, and all but the last `-n` lines for negative `n` |
| Api.TemplateTitle | backend/main.py:233 | the title of a line is stripped and no longer than the line |
| Api.TemplateTitleAfterDot | backend/main.py:233 | for a line containing `.`, the title is the stripped text after the first `.` |
| Api.NumberedLineTitle | backend/main.py:233 | for a numbered line `k.text`, the title is the stripped text |
| Api.UnnumberedLineTitle | backend/main.py:233 | a line without `.` gives its stripped self |
| Api.LineTitles | backend/main.py:231-233 | one title per examined line, in order |
| Api.Numbered | backend/main.py:231-239 | each kept section carries its line's title and 1-based index with empty content; indices strictly increase; every line with a non-empty title is kept |
| Api.ParseTemplate | backend/main.py:229-239 | the sections come from the lines `lines[:num_sections]` of the stripped reply; their ids strictly increase, are the lines' 1-based positions, and never exceed `num_sections` when `num_sections` is at least 0 (a negative value drops that many lines from the end, as `Api.PrefixSlice` states, so the ids are bounded only by the number of examined lines); no line with a non-empty title is skipped |
| Api.TemplateSectionsFromLines | backend/main.py:229-239 | section `m` has an id within the examined lines, the title of the line at that id, and empty content |
| Api.TemplateLinesHaveSections | backend/main.py:231-239 | every examined line with a non-empty title yields a section with that line's number |
| Api.BlankReplyNoSections | backend/main.py:229-234 | an all-whitespace reply yields no sections |
| Api.NoSectionsRequested | backend/main.py:231 | asking for zero sections yields none |
| Api.IdsCountKeptLines | backend/main.py:231-236 | the `m`-th kept section has an id between `m + 1` and the number of examined lines, and the id exceeds `m + 1` by exactly the number of earlier examined lines whose title is empty |
| Api.NumberedGaps | backend/main.py:231-236 | in the loop numbering lines from `first`, the `m`-th kept section sits `m` plus the number of earlier empty titles past `first`, and within the lines |

## Left out

- The python-pptx object model: font names, bold, alignment, transparency, shadows, line widths, the overlay's rotation and the gradient angle. This is a foreign library whose semantics are not visible. Frames, texts, colours and font sizes are modelled.
- Serialisation with `prs.save` into a byte stream. This is I/O in a binary format.
- `add_decorative_bar` (backend/utils/pptx_generator.py:197-215, called at 430). Its position depends on the library's runtime list of shapes: it is measured from `slide.shapes[0]`. When the overlay is drawn, that shape is the overlay, so the bar's top is -0.5 + 8.5 - 0.15 = 7.85 in, entirely below the 7.5 in canvas. When the overlay is absent, that shape is the title bar, and the bar crosses it at 1.25 in. The canvas lemmas speak only of the modelled frames.
- Failures outside the `try` blocks, such as `add_textbox` raising for the mandatory texts. The same goes for the solid fallback fill raising inside the gradient's `except`: it would abort the whole request. The model assumes these library calls succeed.
- Deck.NumberOf: a slide-number block that raises after its box was added leaves a box whose text may not have been set. The model shows `str(index)` whenever the box exists (`Unstyled` included) and omits the box only when the block raised before adding it (`Absent`).
- The FastAPI layer: CORS, `StreamingResponse`, HTTP errors, the logging `print`s, and the prompt strings.
- The Gemini `generate_content` call. Its reply text is a parameter of `Api.ParseTemplate`.
- `generate_docx`: its module is not part of this model. `Api.Document.WordDocument` stands in for its output.
- Strings.Lower: only the characters that can affect an ASCII keyword match are folded: `A`-`Z`, U+0130 (to `i` plus a combining dot) and U+212A (Kelvin sign, to `k`). Every other character is kept as it is, whereas Python also lower-cases other scripts. Keyword and fallback matching is still exact, because every keyword is ASCII.
- Normalize.CleanTextFormatting: stated for all inputs only as "the result is stripped". The exact per-pass behaviour is given by the emphasis and bullet lemmas. Runs of several asterisks, where the regular expressions backtrack in ways that are hard to state, are modelled by the scanning functions but have no property of their own.
- The line breaks inside a bullet line that python-pptx would turn into line breaks within one paragraph. The model keeps each line as a plain string.
- Api.ExportDocument: the theme passed to the generator is fixed to the default, because `export_document` passes none. Other themes are reachable only through `Generator.GeneratePptx`.

=== FILE: api.dfy ===
/**
 The pure string logic of the web layer: the download name and media type of an
 exported document (`export_document`), and the parser that turns the model's
 numbered outline into template sections (`generate_template`).
 */
module Api {
  import opened Wrappers
  import opened Strings
  import Themes
  import Deck
  import Generator

  // ---------------------------------------------------------------------------
  // Export

  const PptxMediaType: string := "application/vnd.openxmlformats-officedocument.presentationml.presentation"
  const DocxMediaType: string := "application/vnd.openxmlformats-officedocument.wordprocessingml.document"

  /** Any document type other than `"docx"` is exported as a presentation. */
  function Extension(docType: string): (ext: string)
    ensures |ext| == 5
    ensures ext == ".docx" <==> docType == "docx"
    ensures docType != "docx" ==> ext == ".pptx"
  {
    if docType == "docx" then ".docx" else ".pptx"
  }

  /** The download name: the topic with every space turned into `_`, then the extension. */
  function ExportFilename(topic: string, docType: string): (name: string)
    ensures |name| == |topic| + 5
    ensures ' ' !in name
    ensures name[|topic|..] == Extension(docType)
    ensures forall m :: 0 <= m < |topic| ==> name[m] == if topic[m] == ' ' then '_' else topic[m]
  {
    var base := ReplaceChar(topic, ' ', '_');
    var name := base + Extension(docType);
    assert forall m :: 0 <= m < |name| ==> name[m] != ' ' by {
      forall m | 0 <= m < |name|
        ensures name[m] != ' '
      {
        if m >= |base| { assert name[m] == Extension(docType)[m - |base|]; }
      }
    }
    name
  }

  /** When the topic has no underscore, turning every `_` of the name back into a space gives the topic. */
  lemma FilenameRestoresTopic(topic: string, docType: string)
    requires '_' !in topic
    ensures var name := ExportFilename(topic, docType);
      ReplaceChar(name[..|topic|], '_', ' ') == topic
  {
    var name := ExportFilename(topic, docType);
    var back := ReplaceChar(name[..|topic|], '_', ' ');
    forall m | 0 <= m < |topic|
      ensures back[m] == topic[m]
    {
      assert name[..|topic|][m] == name[m];
      assert topic[m] in topic;
    }
  }

  /** Characters the name cannot tell apart: a space and an underscore both become `_`. */
  predicate SameInName(a: char, b: char) {
    a == b || (a in " _" && b in " _")
  }

  /** Two topics get the same download name exactly when they agree up to spaces and underscores. */
  lemma FilenameEqualIff(t1: string, t2: string, docType: string)
    ensures ExportFilename(t1, docType) == ExportFilename(t2, docType)
            <==> |t1| == |t2| && forall m :: 0 <= m < |t1| ==> SameInName(t1[m], t2[m])
  {
    if ExportFilename(t1, docType) == ExportFilename(t2, docType) {
      SameNameAgrees(t1, t2, docType);
    }
    if |t1| == |t2| && forall m :: 0 <= m < |t1| ==> SameInName(t1[m], t2[m]) {
      AgreeingTopicsShareName(t1, t2, docType);
    }
  }

  lemma SameNameAgrees(t1: string, t2: string, docType: string)
    requires ExportFilename(t1, docType) == ExportFilename(t2, docType)
    ensures |t1| == |t2| && forall m :: 0 <= m < |t1| ==> SameInName(t1[m], t2[m])
  {
    var n := ExportFilename(t1, docType);
    forall m | 0 <= m < |t1|
      ensures SameInName(t1[m], t2[m])
    {
      assert n[m] == (if t1[m] == ' ' then '_' else t1[m]) == (if t2[m] == ' ' then '_' else t2[m]);
    }
  }

  lemma AgreeingTopicsShareName(t1: string, t2: string, docType: string)
    requires |t1| == |t2| && forall m :: 0 <= m < |t1| ==> SameInName(t1[m], t2[m])
    ensures ExportFilename(t1, docType) == ExportFilename(t2, docType)
  {
    var n1, n2 := ExportFilename(t1, docType), ExportFilename(t2, docType);
    assert n1[|t1|..] == n2[|t2|..];
    forall m | 0 <= m < |n1|
      ensures n1[m] == n2[m]
    {
      if m >= |t1| {
        assert n1[m] == n1[|t1|..][m - |t1|] && n2[m] == n2[|t2|..][m - |t2|];
      } else {
        assert SameInName(t1[m], t2[m]);
      }
    }
  }

  /** So the rule is not injective: `"a b"` and `"a_b"`, for any `a` and `b`, download under one name. */
  lemma FilenamesCollide(a: string, b: string, docType: string)
    ensures ExportFilename(a + " " + b, docType) == ExportFilename(a + "_" + b, docType)
  {
    var t1, t2 := a + " " + b, a + "_" + b;
    forall m | 0 <= m < |t1|
      ensures SameInName(t1[m], t2[m])
    {
      if m < |a| {
        assert t1[m] == a[m] == t2[m];
      } else if m > |a| {
        assert t1[m] == b[m - |a| - 1] == t2[m];
      }
    }
    FilenameEqualIff(t1, t2, docType);
  }

  /** A section of the export request. */
  datatype RequestSection = RequestSection(id: int, title: string, content: string)

  /** The document a download carries; the Word writer is not part of this model. */
  datatype Document = Presentation(deck: Deck.Deck) | WordDocument

  datatype Download = Download(filename: string, mediaType: string, disposition: string, document: Document)

  /** `sections_data`: every request section as a dict with its id, title and content. */
  function SectionsData(sections: seq<RequestSection>): (data: seq<Deck.Section>)
    ensures |data| == |sections|
    ensures forall i :: 0 <= i < |sections| ==>
      && data[i].id == sections[i].id && data[i].title == sections[i].title
      && Deck.ContentOf(data[i]) == sections[i].content
  {
    if |sections| == 0 then []
    else
      var s := sections[0];
      [Deck.Section(s.id, s.title, Some(s.content))] + SectionsData(sections[1..])
  }

  /** The `Content-Disposition` header of a download. */
  function Disposition(filename: string): (d: string)
    ensures |d| == 21 + |filename| && d[..21] == "attachment; filename=" && d[21..] == filename
  {
    "attachment; filename=" + filename
  }

  /**
   `export_document`: a `"docx"` request yields a Word document, anything else a
   presentation, generated with the default theme since no theme is passed.
   */
  function ExportDocument(topic: string, sections: seq<RequestSection>, docType: string, faults: Deck.Faults)
    : (r: Download)
    ensures r.filename == ExportFilename(topic, docType)
    ensures r.disposition == Disposition(r.filename)
    ensures r.document.WordDocument? <==> docType == "docx"
    ensures r.mediaType == if docType == "docx" then DocxMediaType else PptxMediaType
    ensures r.document.Presentation? ==> r.document.deck == ExportedDeck(topic, sections, faults)
  {
    var name := ExportFilename(topic, docType);
    if docType == "docx" then
      Download(name, DocxMediaType, Disposition(name), WordDocument)
    else
      Download(name, PptxMediaType, Disposition(name), Presentation(ExportedDeck(topic, sections, faults)))
  }

  /** The presentation an export carries: the request's sections, in the default palette. */
  function ExportedDeck(topic: string, sections: seq<RequestSection>, faults: Deck.Faults): (d: Deck.Deck)
    ensures d.theme == Themes.ProfessionalBlue
    ensures |d.slides| == 1 + |sections|
  {
    var data := SectionsData(sections);
    Themes.DefaultPalette();
    Generator.GeneratePptx(topic, data, Themes.DefaultThemeId, faults)
  }

  /** The header names the file after a fixed prefix, and the name has no space that could end it early. */
  lemma DispositionNamesFile(topic: string, docType: string)
    ensures var d := Disposition(ExportFilename(topic, docType));
      var p := "attachment; filename=";
      |d| > |p| && d[..|p|] == p && d[|p|..] == ExportFilename(topic, docType) && ' ' !in d[|p|..]
  {
  }

  // ---------------------------------------------------------------------------
  // Outline template

  /** One template section: a 1-based line number, a title and no content yet. */
  datatype TemplateSection = TemplateSection(id: nat, title: string, content: string)

  /** Python's `s[:n]`: the first `n` items, or all but the last `-n` when `n` is negative. */
  function PrefixSlice<T>(s: seq<T>, n: int): (r: seq<T>)
    ensures |r| <= |s| && r == s[..|r|]
    ensures n >= 0 ==> |r| == if n <= |s| then n else |s|
    ensures n < 0 ==> |r| == if -n <= |s| then |s| + n else 0
  {
    if n >= 0 then (if n <= |s| then s[..n] else s)
    else if -n <= |s| then s[..|s| + n]
    else []
  }

  /**
   The title of one outline line: the text after its first `.`, or the whole
   line when it has none, without outer whitespace.
   */
  function TemplateTitle(line: string): (title: string)
    ensures IsStripped(title)
    ensures |title| <= |line|
  {
    if '.' in line then Strip(line[IndexOf(line, '.') + 1..]) else Strip(line)
  }

  /** Everything before the first `.` is numbering and goes; later dots stay in the title. */
  lemma TemplateTitleAfterDot(prefix: string, rest: string)
    requires '.' !in prefix
    ensures TemplateTitle(prefix + "." + rest) == Strip(rest)
  {
    var line := prefix + "." + rest;
    assert line[..|prefix|] == prefix;
    IndexOfAt(line, '.', |prefix|);
    assert line[|prefix| + 1..] == rest;
  }

  /** The first occurrence of `c` is at `p` when `c` is there and nowhere before. */
  lemma IndexOfAt(s: string, c: char, p: nat)
    requires p < |s| && s[p] == c && c !in s[..p]
    ensures IndexOf(s, c) == p
  {
  }

  /** A numbered line `"<k>. <title>"` yields its title. */
  lemma NumberedLineTitle(k: nat, text: string)
    ensures TemplateTitle(NatToString(k) + "." + text) == Strip(text)
  {
    var digits := NatToString(k);
    assert '.' !in digits by {
      forall m | 0 <= m < |digits|
        ensures digits[m] != '.'
      {
        assert IsDigit(digits[m]);
      }
    }
    TemplateTitleAfterDot(digits, text);
  }

  /** A line without a dot yields itself, stripped. */
  lemma UnnumberedLineTitle(line: string)
    requires '.' !in line
    ensures TemplateTitle(line) == Strip(line)
  {
  }

  /** The title of every examined line, in order. */
  function LineTitles(lines: seq<string>): (titles: seq<string>)
    ensures |titles| == |lines|
    ensures forall i :: 0 <= i < |lines| ==> titles[i] == TemplateTitle(lines[i])
  {
    seq(|lines|, i requires 0 <= i < |lines| => TemplateTitle(lines[i]))
  }

  /** Each section carries a non-empty title and the number of the line it came from. */
  predicate FromTitles(titles: seq<string>, first: nat, r: seq<TemplateSection>) {
    forall m :: 0 <= m < |r| ==>
      && first <= r[m].id < first + |titles|
      && r[m].title == titles[r[m].id - first]
      && r[m].title != "" && r[m].content == ""
  }

  predicate Increasing(r: seq<TemplateSection>) {
    forall m, n :: 0 <= m < n < |r| ==> r[m].id < r[n].id
  }

  /** Every line with a non-empty title has its section. */
  predicate CoversTitles(titles: seq<string>, first: nat, r: seq<TemplateSection>) {
    forall i :: 0 <= i < |titles| && titles[i] != "" ==> exists m :: 0 <= m < |r| && r[m].id == first + i
  }

  /** The loop over the examined lines' titles, numbering them from `first` and keeping the non-empty ones. */
  function Numbered(titles: seq<string>, first: nat): (r: seq<TemplateSection>)
    ensures |r| <= |titles|
    ensures FromTitles(titles, first, r) && Increasing(r) && CoversTitles(titles, first, r)
    decreases |titles|
  {
    if |titles| == 0 then []
    else
      var rest := Numbered(titles[1..], first + 1);
      var r := if titles[0] != "" then [TemplateSection(first, titles[0], "")] + rest else rest;
      NumberedStep(titles, first, rest, r);
      r
  }

  /** One step of the loop: the first line's section, if any, goes in front of those of the other lines. */
  lemma NumberedStep(titles: seq<string>, first: nat, rest: seq<TemplateSection>, r: seq<TemplateSection>)
    requires |titles| > 0
    requires FromTitles(titles[1..], first + 1, rest) && Increasing(rest) && CoversTitles(titles[1..], first + 1, rest)
    requires r == if titles[0] != "" then [TemplateSection(first, titles[0], "")] + rest else rest
    ensures FromTitles(titles, first, r) && Increasing(r) && CoversTitles(titles, first, r)
  {
    var head := if titles[0] != "" then [TemplateSection(first, titles[0], "")] else [];
    assert r == head + rest;
    StepFrom(titles, first, head, rest);
    StepIncreasing(titles, first, head, rest);
    StepCovers(titles, first, head, rest);
  }

  /** What the first line contributes: its section when its title is non-empty, nothing otherwise. */
  predicate HeadOf(titles: seq<string>, first: nat, head: seq<TemplateSection>)
    requires |titles| > 0
  {
    head == if titles[0] != "" then [TemplateSection(first, titles[0], "")] else []
  }

  lemma StepFrom(titles: seq<string>, first: nat, head: seq<TemplateSection>, rest: seq<TemplateSection>)
    requires |titles| > 0 && HeadOf(titles, first, head) && FromTitles(titles[1..], first + 1, rest)
    ensures FromTitles(titles, first, head + rest)
  {
    var r := head + rest;
    forall m | 0 <= m < |r|
      ensures first <= r[m].id < first + |titles| && r[m].title == titles[r[m].id - first]
      ensures r[m].title != "" && r[m].content == ""
    {
      if m >= |head| {
        var x := rest[m - |head|];
        assert r[m] == x;
        assert titles[1..][x.id - (first + 1)] == titles[x.id - first];
      }
    }
  }

  lemma StepIncreasing(titles: seq<string>, first: nat, head: seq<TemplateSection>, rest: seq<TemplateSection>)
    requires |titles| > 0 && HeadOf(titles, first, head) && FromTitles(titles[1..], first + 1, rest) && Increasing(rest)
    ensures Increasing(head + rest)
  {
    var r := head + rest;
    forall m, n | 0 <= m < n < |r|
      ensures r[m].id < r[n].id
    {
      assert r[n] == rest[n - |head|];
      if m >= |head| {
        assert r[m] == rest[m - |head|];
      }
    }
  }

  lemma StepCovers(titles: seq<string>, first: nat, head: seq<TemplateSection>, rest: seq<TemplateSection>)
    requires |titles| > 0 && HeadOf(titles, first, head) && CoversTitles(titles[1..], first + 1, rest)
    ensures CoversTitles(titles, first, head + rest)
  {
    var r := head + rest;
    forall i | 0 <= i < |titles| && titles[i] != ""
      ensures exists m :: 0 <= m < |r| && r[m].id == first + i
    {
      if i == 0 {
        assert r[0].id == first;
      } else {
        assert titles[1..][i - 1] == titles[i];
        var m :| 0 <= m < |rest| && rest[m].id == first + 1 + (i - 1);
        assert r[m + |head|] == rest[m];
      }
    }
  }

  /** The lines `generate_template` examines: the first `numSections` lines of the stripped reply. */
  function ExaminedLines(text: string, numSections: int): seq<string> {
    PrefixSlice(Split(Strip(text), '\n'), numSections)
  }

  /**
   `generate_template`'s parsing of the model's reply: strip it, split it into
   lines, examine at most `numSections` of them, and keep one section per line
   with a non-empty title, identified by its 1-based line number.
   */
  function ParseTemplate(text: string, numSections: int): (r: seq<TemplateSection>)
    ensures var titles := LineTitles(ExaminedLines(text, numSections));
      |r| <= |titles| && FromTitles(titles, 1, r) && Increasing(r) && CoversTitles(titles, 1, r)
    ensures numSections >= 0 ==> forall m :: 0 <= m < |r| ==> r[m].id <= numSections
  {
    Numbered(LineTitles(ExaminedLines(text, numSections)), 1)
  }

  /** Spelled out per line: section `m` comes from examined line `id`, whose title it carries. */
  lemma TemplateSectionsFromLines(text: string, numSections: int)
    ensures var lines := ExaminedLines(text, numSections);
      var r := ParseTemplate(text, numSections);
      forall m :: 0 <= m < |r| ==>
        1 <= r[m].id <= |lines| && r[m].title == TemplateTitle(lines[r[m].id - 1]) && r[m].content == ""
  {
    TitlesFromLines(ExaminedLines(text, numSections), ParseTemplate(text, numSections));
  }

  lemma TitlesFromLines(lines: seq<string>, r: seq<TemplateSection>)
    requires FromTitles(LineTitles(lines), 1, r)
    ensures forall m :: 0 <= m < |r| ==>
      1 <= r[m].id <= |lines| && r[m].title == TemplateTitle(lines[r[m].id - 1]) && r[m].content == ""
  {
    var titles := LineTitles(lines);
    forall m | 0 <= m < |r|
      ensures 1 <= r[m].id <= |lines| && r[m].title == TemplateTitle(lines[r[m].id - 1])
    {
      assert r[m].title == titles[r[m].id - 1];
    }
  }

  /** And every examined line with a non-empty title has its section. */
  lemma TemplateLinesHaveSections(text: string, numSections: int)
    ensures var lines := ExaminedLines(text, numSections);
      var r := ParseTemplate(text, numSections);
      forall i :: 0 <= i < |lines| && TemplateTitle(lines[i]) != "" ==> exists m :: 0 <= m < |r| && r[m].id == i + 1
  {
    LinesCovered(ExaminedLines(text, numSections), ParseTemplate(text, numSections));
  }

  lemma LinesCovered(lines: seq<string>, r: seq<TemplateSection>)
    requires CoversTitles(LineTitles(lines), 1, r)
    ensures forall i :: 0 <= i < |lines| && TemplateTitle(lines[i]) != "" ==> exists m :: 0 <= m < |r| && r[m].id == i + 1
  {
    var titles := LineTitles(lines);
    forall i | 0 <= i < |lines| && TemplateTitle(lines[i]) != ""
      ensures exists m :: 0 <= m < |r| && r[m].id == i + 1
    {
      assert titles[i] != "";
    }
  }

  /** A reply with no outline lines in it gives no sections. */
  lemma BlankReplyNoSections(text: string, numSections: int)
    requires AllSpace(text)
    ensures ParseTemplate(text, numSections) == []
  {
    StripEmptyIff(text);
    assert Split(Strip(text), '\n') == [[]];
  }

  /** Asking for no sections examines no line. */
  lemma NoSectionsRequested(text: string, numSections: int)
    requires numSections == 0
    ensures ParseTemplate(text, numSections) == []
  {
  }

  /** The number of empty titles in `titles`. */
  function Blanks(titles: seq<string>): nat
    decreases |titles|
  {
    if |titles| == 0 then 0 else (if titles[0] == "" then 1 else 0) + Blanks(titles[1..])
  }

  /**
   Each section's id is a line number from `first` on, and exceeds `first + m`
   for the `m`-th section by the number of empty titles before its line.
   */
  predicate Gapped(titles: seq<string>, first: nat, r: seq<TemplateSection>) {
    forall m :: 0 <= m < |r| ==>
      && first <= r[m].id < first + |titles|
      && r[m].id - first == m + Blanks(titles[..r[m].id - first])
  }

  /**
   Ids are line numbers: the `m`-th kept section comes from an examined line,
   and the gap between its id and `m + 1` is the number of examined lines
   before it whose title is empty, the lines the loop skipped.
   */
  lemma IdsCountKeptLines(text: string, numSections: int)
    ensures var lines := ExaminedLines(text, numSections);
      var r := ParseTemplate(text, numSections);
      forall m :: 0 <= m < |r| ==>
        && m + 1 <= r[m].id <= |lines|
        && r[m].id == m + 1 + Blanks(LineTitles(lines)[..r[m].id - 1])
  {
    var lines := ExaminedLines(text, numSections);
    var r := ParseTemplate(text, numSections);
    assert r == Numbered(LineTitles(lines), 1);
    NumberedGaps(LineTitles(lines), 1);
    GapsOfLines(lines, r);
  }

  lemma GapsOfLines(lines: seq<string>, r: seq<TemplateSection>)
    requires Gapped(LineTitles(lines), 1, r)
    ensures forall m :: 0 <= m < |r| ==>
      && m + 1 <= r[m].id <= |lines|
      && r[m].id == m + 1 + Blanks(LineTitles(lines)[..r[m].id - 1])
  {
  }

  /** The gap formula holds for the loop numbering from `first`. */
  lemma {:induction false} NumberedGaps(titles: seq<string>, first: nat)
    ensures Gapped(titles, first, Numbered(titles, first))
    decreases |titles|
  {
    if |titles| > 0 {
      NumberedGaps(titles[1..], first + 1);
      GapStep(titles, first, Numbered(titles[1..], first + 1), Numbered(titles, first));
    }
  }

  /** One step of the loop keeps the gap formula. */
  lemma GapStep(titles: seq<string>, first: nat, rest: seq<TemplateSection>, r: seq<TemplateSection>)
    requires |titles| > 0 && Gapped(titles[1..], first + 1, rest)
    requires r == if titles[0] != "" then [TemplateSection(first, titles[0], "")] + rest else rest
    ensures Gapped(titles, first, r)
  {
    forall m | 0 <= m < |r|
      ensures first <= r[m].id < first + |titles|
      ensures r[m].id - first == m + Blanks(titles[..r[m].id - first])
    {
      if titles[0] != "" && m == 0 {
        assert titles[..r[m].id - first] == [];
      } else {
        var n := if titles[0] != "" then m - 1 else m;
        assert r[m] == rest[n];
        BlanksStep(titles, r[m].id - first);
      }
    }
  }

  lemma BlanksStep(titles: seq<string>, j: int)
    requires 1 <= j <= |titles|
    ensures Blanks(titles[..j]) == (if titles[0] == "" then 1 else 0) + Blanks(titles[1..][..j - 1])
  {
    assert titles[..j][1..] == titles[1..][..j - 1];
  }
}

=== FILE: deck.dfy ===
/**
 Deck composition (`generate_pptx`): one title slide carrying the topic, then
 one content slide per section, in order, numbered from 1. Each content slide
 has a heading made of the section's icon and title, and a bullet box of the
 normalised content lines when the section has content.

 The decorative shapes are drawn inside `try/except` blocks that swallow every
 error. The model makes the library's behaviour a parameter: an oracle
 `faults` says, for each slide and each decorative part, whether the block ran
 to the end, stopped after the shape was added, or stopped before. The text
 boxes drawn outside those blocks never depend on the oracle.
 */
module Deck {
  import opened Wrappers
  import opened Strings
  import opened Themes
  import Layout

  /** A section as the generator receives it; `content` may be missing from the dict. */
  datatype Section = Section(id: int, title: string, content: Option<string>)

  /** `section.get('content', '')`. */
  function ContentOf(s: Section): string {
    match s.content
    case None => ""
    case Some(c) => c
  }

  /** The parts of a slide that are drawn inside a `try/except` block. */
  datatype Part = Background | TitleCard | Overlay | TitleBar | AccentLine | ContentCard | SlideNumber

  /** How a guarded block ended: it ran to the end, it raised after adding its shape, or it raised before. */
  datatype Outcome = Drawn | Unstyled | Absent

  /** What the library does on slide `index` (0 is the title slide) for each guarded part. */
  type Faults = (nat, Part) -> Outcome

  /** The oracle of a library that never raises. */
  function NoFaults(index: nat, part: Part): Outcome { Drawn }

  /** The slide background: the diagonal gradient, or the solid fallback when the gradient raised. */
  datatype Fill = Gradient(start: Rgb, end: Rgb) | Solid(color: Rgb)

  /** A decorative shape: which part it is, its frame, its fill colour, and how its block ended. */
  datatype Decoration = Decoration(part: Part, frame: Layout.Rect, fill: Rgb, outcome: Outcome)

  /** A text box with its frame, text, colour and font size in points. */
  datatype TextBox = TextBox(frame: Layout.Rect, text: string, color: Rgb, size: nat)

  /** The content text box: one bulleted paragraph per line. */
  datatype BulletBox = BulletBox(frame: Layout.Rect, lines: seq<string>, color: Rgb, size: nat)

  datatype Slide =
    | TitleSlide(background: Fill, card: Decoration, title: TextBox, subtitle: TextBox)
    | ContentSlide(background: Fill, decor: seq<Decoration>, heading: TextBox,
                   body: Option<BulletBox>, number: Option<TextBox>)

  /** A presentation: the slide size in hundredths of an inch, the palette, and the slides in order. */
  datatype Deck = Deck(width: nat, height: nat, theme: Theme, slides: seq<Slide>)

  const SubtitleText: string := "AI-Generated Presentation"
  const White: Rgb := Rgb(255, 255, 255)

  // ---------------------------------------------------------------------------
  // Headings

  /** The heading of a content slide: the icon, two spaces and the title, or the bare title when there is no icon. */
  function TitleText(icon: string, title: string): string {
    if icon != "" then icon + "  " + title else title
  }

  /** The title back from a heading built with a known icon. */
  function HeadingTitle(icon: string, heading: string): string {
    if icon == "" then heading
    else if |heading| >= |icon| + 2 then heading[|icon| + 2..]
    else heading
  }

  /**
   A heading ends with the title; it is the bare title exactly when there is
   no icon, and otherwise starts with the icon followed by two spaces.
   */
  lemma TitleTextShape(icon: string, title: string)
    ensures var r := TitleText(icon, title);
      && |r| >= |title| && r[|r| - |title|..] == title
      && (r == title <==> icon == "")
      && (icon != "" ==> |r| == |icon| + 2 + |title| && r[..|icon|] == icon && r[|icon|..|icon| + 2] == "  ")
  {
    var r := TitleText(icon, title);
    if icon != "" {
      assert r == icon + ("  " + title);
      assert |r| != |title|;
    }
  }

  /** The title can be read back from the heading: for a fixed icon, distinct titles give distinct headings. */
  lemma HeadingTitleRoundTrip(icon: string, title: string)
    ensures HeadingTitle(icon, TitleText(icon, title)) == title
  {
    if icon != "" {
      var r := TitleText(icon, title);
      assert r == (icon + "  ") + title;
      assert |icon + "  "| == |icon| + 2;
    }
  }

  lemma TitleTextInjective(icon: string, a: string, b: string)
    requires TitleText(icon, a) == TitleText(icon, b)
    ensures a == b
  {
    HeadingTitleRoundTrip(icon, a);
    HeadingTitleRoundTrip(icon, b);
  }

  // ---------------------------------------------------------------------------
  // Slides

  /** `apply_gradient_background`: the gradient of the palette, or a solid fill of its start colour. */
  function BackgroundFill(theme: Theme, outcome: Outcome): (f: Fill)
    ensures f.Gradient? <==> outcome == Drawn
    ensures f.Gradient? ==> f.start == theme.bgStart && f.end == theme.bgEnd
    ensures f.Solid? ==> f.color == theme.bgStart
  {
    if outcome == Drawn then Gradient(theme.bgStart, theme.bgEnd) else Solid(theme.bgStart)
  }

  /** The title slide: centre card, then the topic and the fixed subtitle below it. */
  function TitleSlideOf(topic: string, theme: Theme, faults: Faults): (s: Slide)
    ensures s.TitleSlide?
    ensures s.title.text == topic && s.subtitle.text == SubtitleText
    ensures Layout.Inside(s.title.frame, s.card.frame) && Layout.Inside(s.subtitle.frame, s.card.frame)
    ensures Layout.Above(s.title.frame, s.subtitle.frame)
  {
    Layout.LayoutContainment();
    TitleSlide(
      BackgroundFill(theme, faults(0, Background)),
      Decoration(TitleCard, Layout.TitleCard, White, faults(0, TitleCard)),
      TextBox(Layout.TopicBox, topic, theme.titleColor, 50),
      TextBox(Layout.SubtitleBox, SubtitleText, theme.textColor, 22))
  }

  /**
   The decoration records of a content slide, in drawing order, each with the
   outcome of its block (an `Absent` record is a shape never added); the content
   card only when there is content.
   */
  function ContentDecor(index: nat, content: string, theme: Theme, faults: Faults): (ds: seq<Decoration>)
    ensures |ds| == if content != "" then 4 else 3
    ensures (exists m :: 0 <= m < |ds| && ds[m].part == ContentCard) <==> content != ""
    ensures forall m :: 0 <= m < |ds| ==> ds[m].outcome == faults(index, ds[m].part)
  {
    var fixed := [
      Decoration(Overlay, Layout.OverlayRect, theme.bgEnd, faults(index, Overlay)),
      Decoration(TitleBar, Layout.HeaderBar, White, faults(index, TitleBar)),
      Decoration(AccentLine, Layout.AccentLine, theme.accentColor, faults(index, AccentLine))];
    if content != "" then
      var ds := fixed + [Decoration(ContentCard, Layout.ContentCard, White, faults(index, ContentCard))];
      assert ds[3].part == ContentCard;
      ds
    else fixed
  }

  /**
   The two per-section computations a content slide delegates: the icon of a
   title (`get_icon_for_title`) and the bullet lines of a content text
   (`clean_text_formatting` and the split that follows it). The composition is
   stated for any pair; the generator's own pair is in module `Generator`.
   */
  datatype Helpers = Helpers(iconOf: string -> string, linesOf: string -> seq<string>)

  /** The bullet box of a section with content: its lines in the content frame. */
  function BodyOf(content: string, theme: Theme, h: Helpers): (b: Option<BulletBox>)
    ensures b.Some? <==> content != ""
    ensures b.Some? ==> b.value.lines == h.linesOf(content) && b.value.frame == Layout.ContentBox
  {
    if content != "" then Some(BulletBox(Layout.ContentBox, h.linesOf(content), theme.textColor, 22))
    else None
  }

  /**
   The slide number box: present when its block at least added the box. Its
   text is `str(index)`: decimal digits without a leading zero that read back
   as the index.
   */
  function NumberOf(index: nat, theme: Theme, faults: Faults): (n: Option<TextBox>)
    ensures n.Some? <==> faults(index, SlideNumber) != Absent
    ensures n.Some? ==> n.value.text == NatToString(index) && n.value.frame == Layout.SlideNumberBox
    ensures n.Some? ==> forall m :: 0 <= m < |n.value.text| ==> IsDigit(n.value.text[m])
    ensures n.Some? ==> DecimalValue(n.value.text) == index
    ensures n.Some? ==> (n.value.text[0] == '0' ==> n.value.text == "0")
  {
    DecimalRoundTrip(index);
    if faults(index, SlideNumber) != Absent then
      Some(TextBox(Layout.SlideNumberBox, NatToString(index), theme.textColor, 14))
    else None
  }

  /** Content slide number `index` (1-based) for `section`. */
  function ContentSlideOf(section: Section, index: nat, theme: Theme, faults: Faults, h: Helpers): (s: Slide)
    ensures s.ContentSlide?
    ensures var t := s.heading.text;
      && |t| >= |section.title| && t[|t| - |section.title|..] == section.title
      && (t == section.title <==> h.iconOf(section.title) == "")
      && HeadingTitle(h.iconOf(section.title), t) == section.title
    ensures s.body.Some? <==> ContentOf(section) != ""
    ensures s.body.Some? ==> s.body.value.lines == h.linesOf(ContentOf(section))
    ensures s.number.Some? <==> faults(index, SlideNumber) != Absent
    ensures s.number.Some? ==> s.number.value.text == NatToString(index)
  {
    var icon := h.iconOf(section.title);
    TitleTextShape(icon, section.title);
    HeadingTitleRoundTrip(icon, section.title);
    ContentSlide(
      BackgroundFill(theme, faults(index, Background)),
      ContentDecor(index, ContentOf(section), theme, faults),
      TextBox(Layout.HeadingBox, TitleText(icon, section.title), theme.titleColor, 34),
      BodyOf(ContentOf(section), theme, h),
      NumberOf(index, theme, faults))
  }

  /** How a content slide is built from a section and its 1-based number. */
  type SlideMaker = (Section, nat) -> Slide

  /** `for i, section in enumerate(sections, first)`: one slide per section, in order, numbered on from `first`. */
  function Enumerate(sections: seq<Section>, first: nat, slideOf: SlideMaker): (slides: seq<Slide>)
    ensures |slides| == |sections|
    ensures forall i :: 0 <= i < |sections| ==> slides[i] == slideOf(sections[i], first + i)
    decreases |sections|
  {
    if |sections| == 0 then []
    else
      var rest := Enumerate(sections[1..], first + 1, slideOf);
      var slides := [slideOf(sections[0], first)] + rest;
      assert forall i :: 0 < i < |sections| ==> slides[i] == rest[i - 1] && sections[1..][i - 1] == sections[i];
      slides
  }

  /** The content slides of a deck in `theme`, with the library behaving as `faults` says. */
  function ContentMaker(theme: Theme, faults: Faults, h: Helpers): SlideMaker {
    (section: Section, index: nat) => ContentSlideOf(section, index, theme, faults, h)
  }

  /** The deck `generate_pptx` composes, with the per-section computations `h`. */
  function Compose(topic: string, sections: seq<Section>, themeId: string, faults: Faults, h: Helpers): (d: Deck)
    ensures d.width == Layout.Canvas.width && d.height == Layout.Canvas.height
    ensures d.theme == ResolveTheme(themeId)
    ensures |d.slides| == 1 + |sections|
    ensures d.slides[0] == TitleSlideOf(topic, d.theme, faults)
    ensures forall k :: 1 <= k <= |sections| ==> d.slides[k] == ContentMaker(d.theme, faults, h)(sections[k - 1], k)
  {
    var theme := ResolveTheme(themeId);
    var contents := Enumerate(sections, 1, ContentMaker(theme, faults, h));
    var slides := [TitleSlideOf(topic, theme, faults)] + contents;
    ConsIndex(slides[0], contents);
    Deck(1000, 750, theme, slides)
  }

  lemma ConsIndex(x: Slide, rest: seq<Slide>)
    ensures forall k :: 1 <= k <= |rest| ==> ([x] + rest)[k] == rest[k - 1]
  {
  }

  /** Content slide `k` of a composed deck, spelled out. */
  lemma ContentSlideAt(topic: string, sections: seq<Section>, themeId: string, faults: Faults, h: Helpers, k: int)
    requires 1 <= k <= |sections|
    ensures Compose(topic, sections, themeId, faults, h).slides[k]
            == ContentSlideOf(sections[k - 1], k, ResolveTheme(themeId), faults, h)
  {
    var d := Compose(topic, sections, themeId, faults, h);
    assert d.slides[k] == ContentMaker(d.theme, faults, h)(sections[k - 1], k);
  }

  // ---------------------------------------------------------------------------
  // Properties of the composition, for any helpers

  /**
   Content slide `k` carries section `k`: its heading ends with the section's
   title, it has a bullet box of the section's lines exactly when the section
   has content, and its number is shown exactly when its block added the box, as `str(k)`.
   */
  lemma SlideSequence(topic: string, sections: seq<Section>, themeId: string, faults: Faults, h: Helpers, k: int)
    requires 1 <= k <= |sections|
    ensures var s := Compose(topic, sections, themeId, faults, h).slides[k];
      && s.ContentSlide?
      && s.heading.text[|s.heading.text| - |sections[k - 1].title|..] == sections[k - 1].title
      && (s.body.Some? <==> ContentOf(sections[k - 1]) != "")
      && (s.body.Some? ==> s.body.value.lines == h.linesOf(ContentOf(sections[k - 1])))
      && (s.number.Some? <==> faults(k, SlideNumber) != Absent)
      && (s.number.Some? ==> s.number.value.text == NatToString(k) && DecimalValue(s.number.value.text) == k)
  {
    ContentSlideAt(topic, sections, themeId, faults, h, k);
    var title := sections[k - 1].title;
    TitleTextShape(h.iconOf(title), title);
  }

  /** The title slide shows the topic and the fixed subtitle. */
  lemma TitleSlideText(topic: string, sections: seq<Section>, themeId: string, faults: Faults, h: Helpers)
    ensures var s := Compose(topic, sections, themeId, faults, h).slides[0];
      s.TitleSlide? && s.title.text == topic && s.subtitle.text == SubtitleText
  {
  }

  /** A section without content still yields its slide, but with no bullet box and no content card. */
  lemma EmptyContentSlide(topic: string, sections: seq<Section>, themeId: string, faults: Faults, h: Helpers, k: int)
    requires 1 <= k <= |sections| && ContentOf(sections[k - 1]) == ""
    ensures var s := Compose(topic, sections, themeId, faults, h).slides[k];
      && s.ContentSlide? && s.body.None?
      && forall m :: 0 <= m < |s.decor| ==> s.decor[m].part != ContentCard
  {
    ContentSlideAt(topic, sections, themeId, faults, h, k);
  }

  /** Slide numbers run 1..N: distinct content slides never show the same number. */
  lemma SlideNumbersDistinct(topic: string, sections: seq<Section>, themeId: string, faults: Faults, h: Helpers,
                             i: int, j: int)
    requires 1 <= i <= |sections| && 1 <= j <= |sections| && i != j
    ensures var d := Compose(topic, sections, themeId, faults, h);
      d.slides[i].number.Some? && d.slides[j].number.Some? ==>
        d.slides[i].number.value.text != d.slides[j].number.value.text
  {
    ContentSlideAt(topic, sections, themeId, faults, h, i);
    ContentSlideAt(topic, sections, themeId, faults, h, j);
  }

  /** With a library that never raises, content slide `k` shows the number `k`, its gradient and every decoration. */
  lemma FaultFreeSlide(topic: string, sections: seq<Section>, themeId: string, h: Helpers, k: int)
    requires 1 <= k <= |sections|
    ensures var s := Compose(topic, sections, themeId, NoFaults, h).slides[k];
      && s.number == Some(TextBox(Layout.SlideNumberBox, NatToString(k), ResolveTheme(themeId).textColor, 14))
      && s.background.Gradient?
      && forall m :: 0 <= m < |s.decor| ==> s.decor[m].outcome == Drawn
  {
    ContentSlideAt(topic, sections, themeId, NoFaults, h, k);
  }

  /** The text a reader of the deck sees whatever the library does: topic, subtitle, headings and bullet lines. */
  function MandatoryText(s: Slide): (seq<string>, Option<seq<string>>) {
    match s
    case TitleSlide(_, _, title, subtitle) => ([title.text, subtitle.text], None)
    case ContentSlide(_, _, heading, body, _) =>
      ([heading.text], if body.Some? then Some(body.value.lines) else None)
  }

  /**
   The guarded blocks never touch the mandatory text: two runs that differ only
   in what the library raises produce the same topic, subtitle, headings and
   bullet lines on every slide.
   */
  lemma FaultsKeepText(topic: string, sections: seq<Section>, themeId: string, f: Faults, g: Faults, h: Helpers)
    ensures var a := Compose(topic, sections, themeId, f, h);
      var b := Compose(topic, sections, themeId, g, h);
      |a.slides| == |b.slides|
      && forall k :: 0 <= k < |a.slides| ==> MandatoryText(a.slides[k]) == MandatoryText(b.slides[k])
  {
    var a := Compose(topic, sections, themeId, f, h);
    var b := Compose(topic, sections, themeId, g, h);
    forall k | 0 <= k < |a.slides|
      ensures MandatoryText(a.slides[k]) == MandatoryText(b.slides[k])
    {
      if k > 0 {
        ContentSlideAt(topic, sections, themeId, f, h, k);
        ContentSlideAt(topic, sections, themeId, g, h, k);
      }
    }
  }

  /** Enumerating `a + b` gives the slides of `a`, then those of `b` numbered on from `first + |a|`. */
  lemma {:induction false} EnumerateAppend(a: seq<Section>, b: seq<Section>, first: nat, slideOf: SlideMaker)
    ensures Enumerate(a + b, first, slideOf) == Enumerate(a, first, slideOf) + Enumerate(b, first + |a|, slideOf)
    decreases |a|
  {
    if |a| > 0 {
      assert (a + b)[0] == a[0] && (a + b)[1..] == a[1..] + b;
      EnumerateAppend(a[1..], b, first + 1, slideOf);
    } else {
      assert a + b == b;
    }
  }

  /** Every text box and every decoration but the overlay lies on the slide. */
  predicate OnCanvas(s: Slide) {
    match s
    case TitleSlide(_, card, title, subtitle) =>
      Layout.Inside(card.frame, Layout.Canvas) && Layout.Inside(title.frame, Layout.Canvas)
      && Layout.Inside(subtitle.frame, Layout.Canvas)
    case ContentSlide(_, decor, heading, body, number) =>
      && Layout.Inside(heading.frame, Layout.Canvas)
      && (body.Some? ==> Layout.Inside(body.value.frame, Layout.Canvas))
      && (number.Some? ==> Layout.Inside(number.value.frame, Layout.Canvas))
      && forall m :: 0 <= m < |decor| && decor[m].part != Overlay ==> Layout.Inside(decor[m].frame, Layout.Canvas)
  }

  lemma TitleSlideOnCanvas(topic: string, theme: Theme, faults: Faults)
    ensures OnCanvas(TitleSlideOf(topic, theme, faults))
  {
    Layout.LayoutContainment();
  }

  lemma ContentSlideOnCanvas(section: Section, index: nat, theme: Theme, faults: Faults, h: Helpers)
    ensures OnCanvas(ContentSlideOf(section, index, theme, faults, h))
  {
    Layout.LayoutContainment();
  }

  /** Every slide of a composed deck keeps its frames on the slide, the overlay aside. */
  lemma FramesOnCanvas(topic: string, sections: seq<Section>, themeId: string, faults: Faults, h: Helpers, k: int)
    requires 0 <= k <= |sections|
    ensures OnCanvas(Compose(topic, sections, themeId, faults, h).slides[k])
  {
    if k == 0 {
      TitleSlideOnCanvas(topic, ResolveTheme(themeId), faults);
    } else {
      ContentSlideAt(topic, sections, themeId, faults, h, k);
      ContentSlideOnCanvas(sections[k - 1], k, ResolveTheme(themeId), faults, h);
    }
  }
}

=== FILE: generator.dfy ===
/**
 `generate_pptx` itself: the deck composition of module `Deck` with the
 generator's own helpers, `get_icon_for_title` for the headings and
 `clean_text_formatting` with the line split for the bullet boxes.
 */
module Generator {
  import opened Strings
  import opened Themes
  import opened Deck
  import Icons
  import Normalize

  const Own: Helpers := Helpers(Icons.IconForTitle, Normalize.ContentLines)

  /** `generate_pptx(topic, sections, theme)`, with the library's behaviour given by `faults`. */
  function GeneratePptx(topic: string, sections: seq<Section>, themeId: string, faults: Faults): (d: Deck)
    ensures d.theme == ResolveTheme(themeId)
    ensures |d.slides| == 1 + |sections|
    ensures d.slides[0].TitleSlide? && d.slides[0].title.text == topic
  {
    Compose(topic, sections, themeId, faults, Own)
  }

  /** In a generated deck, content slide `k`'s heading is section `k`'s icon, two spaces and title. */
  lemma GeneratedHeading(topic: string, sections: seq<Section>, themeId: string, faults: Faults, k: int)
    requires 1 <= k <= |sections|
    ensures var title := sections[k - 1].title;
      var s := GeneratePptx(topic, sections, themeId, faults).slides[k];
      s.ContentSlide? && s.heading.text == TitleText(Icons.IconForTitle(title), title)
  {
    ContentSlideAt(topic, sections, themeId, faults, Own, k);
  }

  /** In a generated deck, the bullet lines are the normalised content, each non-empty and without outer whitespace. */
  lemma GeneratedLinesClean(topic: string, sections: seq<Section>, themeId: string, faults: Faults, k: int)
    requires 1 <= k <= |sections|
    ensures var s := GeneratePptx(topic, sections, themeId, faults).slides[k];
      s.ContentSlide? && s.body.Some? ==>
        && s.body.value.lines == Normalize.ContentLines(ContentOf(sections[k - 1]))
        && forall m :: 0 <= m < |s.body.value.lines| ==> s.body.value.lines[m] != [] && IsStripped(s.body.value.lines[m])
  {
    ContentSlideAt(topic, sections, themeId, faults, Own, k);
  }

  /** A slide titled "Training", in any letter case, is headed by the robot of `ai`, not the training glyph. */
  lemma TrainingSlideHeading(topic: string, sections: seq<Section>, themeId: string, faults: Faults, k: int)
    requires 1 <= k <= |sections| && Lower(sections[k - 1].title) == "training"
    ensures GeneratePptx(topic, sections, themeId, faults).slides[k].heading.text
            == "\U{1F916}" + "  " + sections[k - 1].title
  {
    GeneratedHeading(topic, sections, themeId, faults, k);
    Icons.TrainingGetsRobot(sections[k - 1].title);
  }
}

=== FILE: icons.dfy ===
/**
 Slide icons: `get_icon_for_title` looks the lower-cased title up in an ordered
 table of keywords, the first keyword that occurs anywhere in the title wins,
 and when none does three groups of fallback words are tried in order.
 */
module Icons {
  import opened Wrappers
  import opened Strings

  /** An emoji: never the empty string, so a table hit always yields an icon. */
  type Glyph = s: string | |s| > 0 witness "?"

  /** One row of the icon table: a lower-case keyword and the emoji it selects. */
  datatype Entry = Entry(keyword: string, glyph: Glyph)

  /** Introduction and Overview. */
  const IntroductionGroup: seq<Entry> := [
    Entry("introduction", "\U{1F4CA}"),
    Entry("overview", "\U{1F441}\U{FE0F}"),
    Entry("agenda", "\U{1F4CB}"),
    Entry("outline", "\U{1F4DD}")
  ]

  /** Business and Strategy. */
  const BusinessGroup: seq<Entry> := [
    Entry("strategy", "\U{1F3AF}"),
    Entry("business", "\U{1F4BC}"),
    Entry("market", "\U{1F4C8}"),
    Entry("trading", "\U{1F4B9}"),
    Entry("finance", "\U{1F4B0}"),
    Entry("investment", "\U{1F4B5}"),
    Entry("sales", "\U{1F91D}"),
    Entry("marketing", "\U{1F4E2}")
  ]

  /** Analysis and Data. */
  const AnalysisGroup: seq<Entry> := [
    Entry("analysis", "\U{1F50D}"),
    Entry("data", "\U{1F4CA}"),
    Entry("statistics", "\U{1F4C9}"),
    Entry("metrics", "\U{1F4CF}"),
    Entry("report", "\U{1F4C4}"),
    Entry("research", "\U{1F52C}")
  ]

  /** Technology. */
  const TechnologyGroup: seq<Entry> := [
    Entry("technology", "\U{1F4BB}"),
    Entry("ai", "\U{1F916}"),
    Entry("artificial intelligence", "\U{1F916}"),
    Entry("machine learning", "\U{1F9E0}"),
    Entry("algorithm", "\U{2699}\U{FE0F}"),
    Entry("automation", "\U{1F504}"),
    Entry("digital", "\U{1F4F1}"),
    Entry("software", "\U{1F4BE}")
  ]

  /** Risk and Security. */
  const RiskGroup: seq<Entry> := [
    Entry("risk", "\U{26A0}\U{FE0F}"),
    Entry("security", "\U{1F512}"),
    Entry("protection", "\U{1F6E1}\U{FE0F}"),
    Entry("safety", "\U{1F9BA}")
  ]

  /** Growth and Success. */
  const GrowthGroup: seq<Entry> := [
    Entry("growth", "\U{1F4C8}"),
    Entry("success", "\U{1F3C6}"),
    Entry("achievement", "\U{1F396}\U{FE0F}"),
    Entry("goals", "\U{1F3AF}"),
    Entry("target", "\U{1F3AF}")
  ]

  /** Future and Innovation. */
  const FutureGroup: seq<Entry> := [
    Entry("future", "\U{1F52E}"),
    Entry("innovation", "\U{1F4A1}"),
    Entry("trends", "\U{1F4CA}"),
    Entry("forecast", "\U{1F324}\U{FE0F}"),
    Entry("prediction", "\U{1F52E}")
  ]

  /** Communication. */
  const CommunicationGroup: seq<Entry> := [
    Entry("communication", "\U{1F4AC}"),
    Entry("team", "\U{1F465}"),
    Entry("collaboration", "\U{1F91D}"),
    Entry("meeting", "\U{1F5D3}\U{FE0F}")
  ]

  /** Process and Timeline. */
  const ProcessGroup: seq<Entry> := [
    Entry("process", "\U{2699}\U{FE0F}"),
    Entry("timeline", "\U{1F4C5}"),
    Entry("roadmap", "\U{1F5FA}\U{FE0F}"),
    Entry("workflow", "\U{1F504}")
  ]

  /** Results and Conclusion. */
  const ResultsGroup: seq<Entry> := [
    Entry("results", "\U{2705}"),
    Entry("conclusion", "\U{1F3C1}"),
    Entry("summary", "\U{1F4DD}"),
    Entry("takeaway", "\U{1F381}"),
    Entry("recommendation", "\U{1F44D}")
  ]

  /** Problems and Solutions. */
  const ProblemsGroup: seq<Entry> := [
    Entry("problem", "\U{2757}"),
    Entry("challenge", "\U{1F9D7}"),
    Entry("solution", "\U{1F4A1}"),
    Entry("benefits", "\U{2728}"),
    Entry("advantages", "\U{2795}")
  ]

  /** Education and Learning. */
  const EducationGroup: seq<Entry> := [
    Entry("education", "\U{1F393}"),
    Entry("learning", "\U{1F4DA}"),
    Entry("training", "\U{1F3CB}\U{FE0F}"),
    Entry("knowledge", "\U{1F9E0}")
  ]

  /** The icon table in declaration order, group by group; the order decides which keyword wins. */
  const IconTable: seq<Entry> :=
    IntroductionGroup + BusinessGroup + AnalysisGroup + TechnologyGroup + RiskGroup + GrowthGroup
    + FutureGroup + CommunicationGroup + ProcessGroup + ResultsGroup + ProblemsGroup + EducationGroup

  const OpeningIcon: string := "\U{1F4CA}"
  const ClosingIcon: string := "\U{1F3C1}"
  const ThanksIcon: string := "\U{1F64F}"

  const OpeningWords: seq<string> := ["intro", "start", "begin", "welcome"]
  const ClosingWords: seq<string> := ["end", "conclude", "final", "summary"]
  const ThanksWords: seq<string> := ["thank", "questions", "q&a"]

  /** `any(word in t for word in words)`. */
  predicate AnyWord(t: string, words: seq<string>) {
    exists m :: 0 <= m < |words| && Contains(t, words[m])
  }

  function Keyword(j: nat): string
    requires j < |IconTable|
  {
    IconTable[j].keyword
  }

  /** Entry `j` is the first entry of the table whose keyword occurs in `t`. */
  ghost predicate FirstKeywordAt(t: string, j: int) {
    0 <= j < |IconTable| && Contains(t, Keyword(j))
    && forall i :: 0 <= i < j ==> !Contains(t, Keyword(i))
  }

  /** No keyword of the table occurs in `t`. */
  ghost predicate NoKeyword(t: string) {
    forall j :: 0 <= j < |IconTable| ==> !Contains(t, Keyword(j))
  }

  /** The scan over the table from entry `k` on, stopping at the first keyword that occurs in `t`. */
  function FirstMatchFrom(t: string, k: nat): (r: Option<nat>)
    requires k <= |IconTable|
    ensures r.Some? ==> k <= r.value < |IconTable| && Contains(t, Keyword(r.value))
    ensures r.Some? ==> forall i :: k <= i < r.value ==> !Contains(t, Keyword(i))
    ensures r.None? ==> forall i :: k <= i < |IconTable| ==> !Contains(t, Keyword(i))
    decreases |IconTable| - k
  {
    if k == |IconTable| then None
    else if Contains(t, Keyword(k)) then Some(k)
    else FirstMatchFrom(t, k + 1)
  }

  /** The fallback icon of a title that matched no keyword. */
  function Fallback(t: string): (r: string)
    ensures r == "" <==> !AnyWord(t, OpeningWords) && !AnyWord(t, ClosingWords) && !AnyWord(t, ThanksWords)
    ensures AnyWord(t, OpeningWords) ==> r == OpeningIcon
    ensures !AnyWord(t, OpeningWords) && AnyWord(t, ClosingWords) ==> r == ClosingIcon
    ensures !AnyWord(t, OpeningWords) && !AnyWord(t, ClosingWords) && AnyWord(t, ThanksWords) ==> r == ThanksIcon
  {
    if AnyWord(t, OpeningWords) then OpeningIcon
    else if AnyWord(t, ClosingWords) then ClosingIcon
    else if AnyWord(t, ThanksWords) then ThanksIcon
    else ""
  }

  /**
   `get_icon_for_title`: the glyph of the first table entry whose keyword
   occurs in the lower-cased title; failing that, the fallback groups in order;
   failing those, no icon.
   */
  function IconForTitle(title: string): (icon: string)
    ensures var t := Lower(title);
      (exists j :: FirstKeywordAt(t, j) && icon == IconTable[j].glyph) || NoKeyword(t)
    ensures var t := Lower(title);
      NoKeyword(t) ==>
        && (AnyWord(t, OpeningWords) ==> icon == OpeningIcon)
        && (!AnyWord(t, OpeningWords) && AnyWord(t, ClosingWords) ==> icon == ClosingIcon)
        && (!AnyWord(t, OpeningWords) && !AnyWord(t, ClosingWords) && AnyWord(t, ThanksWords)
            ==> icon == ThanksIcon)
        && (!AnyWord(t, OpeningWords) && !AnyWord(t, ClosingWords) && !AnyWord(t, ThanksWords)
            ==> icon == "")
  {
    var t := Lower(title);
    match FirstMatchFrom(t, 0)
    case Some(j) =>
      assert FirstKeywordAt(t, j);
      IconTable[j].glyph
    case None => Fallback(t)
  }

  /** Only one entry can be the first match. */
  lemma FirstKeywordUnique(t: string, i: int, j: int)
    requires FirstKeywordAt(t, i) && FirstKeywordAt(t, j)
    ensures i == j
  {
  }

  /** When entry `j` is the first match, its glyph is the icon. */
  lemma IconOfFirstKeyword(title: string, j: int)
    requires FirstKeywordAt(Lower(title), j)
    ensures IconForTitle(title) == IconTable[j].glyph
  {
    var t := Lower(title);
    var r := FirstMatchFrom(t, 0);
    assert r.Some?;
    assert FirstKeywordAt(t, r.value);
    FirstKeywordUnique(t, r.value, j);
  }

  /**
   Any keyword occurring in the title bounds the winner: the icon comes from
   that entry or from an earlier one, never from a later one or a fallback.
   */
  lemma EarlierKeywordWins(title: string, k: int)
    requires 0 <= k < |IconTable| && Contains(Lower(title), Keyword(k))
    ensures exists j :: 0 <= j <= k && FirstKeywordAt(Lower(title), j)
                        && IconForTitle(title) == IconTable[j].glyph
  {
    var t := Lower(title);
    var r := FirstMatchFrom(t, 0);
    assert r.Some?;
    var j := r.value;
    assert FirstKeywordAt(t, j);
    IconOfFirstKeyword(title, j);
    assert j <= k;
  }

  /** A title gets no icon exactly when it contains no keyword and no fallback word. */
  lemma IconEmptyIff(title: string)
    ensures var t := Lower(title);
      IconForTitle(title) == ""
      <==> NoKeyword(t) && !AnyWord(t, OpeningWords) && !AnyWord(t, ClosingWords) && !AnyWord(t, ThanksWords)
  {
    var t := Lower(title);
    match FirstMatchFrom(t, 0)
    case Some(j) =>
      assert IconForTitle(title) == IconTable[j].glyph;
      assert !NoKeyword(t);
    case None =>
      assert IconForTitle(title) == Fallback(t);
  }

  /** No keyword of `entries` occurs in `t`. */
  predicate MissesAll(t: string, entries: seq<Entry>) {
    forall m :: 0 <= m < |entries| ==> !Contains(t, entries[m].keyword)
  }

  /** "training" contains none of the keywords that come before `ai`. */
  lemma TrainingMissesEarlier()
    ensures MissesAll("training", IntroductionGroup)
    ensures MissesAll("training", BusinessGroup)
    ensures MissesAll("training", AnalysisGroup)
    ensures TechnologyGroup[0].keyword == "technology" && !Contains("training", "technology")
    ensures TechnologyGroup[1].keyword == "ai" && Contains("training", "ai")
  {
    TrainingMissesFirstGroups();
    assert MissesAll("training", AnalysisGroup);
  }

  lemma TrainingMissesFirstGroups()
    ensures MissesAll("training", IntroductionGroup)
    ensures MissesAll("training", BusinessGroup)
  {
  }

  /**
   "Training", in any letter case, shows the robot: `ai` (entry 19) occurs in
   it and comes before `training` (entry 60).
   */
  lemma TrainingGetsRobot(title: string)
    requires Lower(title) == "training"
    ensures IconForTitle(title) == "\U{1F916}"
  {
    var t := Lower(title);
    TrainingMissesBeforeAi();
    assert Keyword(19) == TechnologyGroup[1].keyword;
    assert FirstKeywordAt(t, 19);
    IconOfFirstKeyword(title, 19);
    assert IconTable[19].glyph == TechnologyGroup[1].glyph;
  }

  /** The 19 keywords before `ai` all miss "training". */
  lemma TrainingMissesBeforeAi()
    ensures Contains("training", Keyword(19))
    ensures forall i :: 0 <= i < 19 ==> !Contains("training", Keyword(i))
  {
    TrainingMissesEarlier();
    assert Keyword(19) == TechnologyGroup[1].keyword;
    forall i | 0 <= i < 19
      ensures !Contains("training", Keyword(i))
    {
      if i < 4 {
        assert Keyword(i) == IntroductionGroup[i].keyword;
      } else if i < 12 {
        assert Keyword(i) == BusinessGroup[i - 4].keyword;
      } else if i < 18 {
        assert Keyword(i) == AnalysisGroup[i - 12].keyword;
      } else {
        assert Keyword(i) == TechnologyGroup[0].keyword;
      }
    }
  }

  /**
   Two entries are shadowed and can never decide an icon: every title containing
   `training` (entry 60) contains `ai` (entry 19), and every title containing
   `marketing` (entry 11) contains `market` (entry 6).
   */
  lemma ShadowedEntries(title: string)
    ensures !FirstKeywordAt(Lower(title), 60)
    ensures !FirstKeywordAt(Lower(title), 11)
  {
    var t := Lower(title);
    ShadowingKeywords();
    if Contains(t, Keyword(60)) {
      ContainsTransitive(t, Keyword(60), Keyword(19));
    }
    if Contains(t, Keyword(11)) {
      ContainsTransitive(t, Keyword(11), Keyword(6));
    }
  }

  lemma ShadowingKeywords()
    ensures Keyword(60) == "training" && Keyword(19) == "ai" && Contains("training", "ai")
    ensures Keyword(11) == "marketing" && Keyword(6) == "market" && Contains("marketing", "market")
  {
    TrainingKeywords();
    MarketingKeywords();
  }

  lemma TrainingKeywords()
    ensures Keyword(60) == "training" && Keyword(19) == "ai"
  {
    assert Keyword(60) == EducationGroup[2].keyword;
    assert Keyword(19) == TechnologyGroup[1].keyword;
  }

  lemma MarketingKeywords()
    ensures Keyword(11) == "marketing" && Keyword(6) == "market"
  {
    assert Keyword(11) == BusinessGroup[7].keyword;
    assert Keyword(6) == BusinessGroup[2].keyword;
  }
}

=== FILE: layout.dfy ===
/**
 The fixed geometry of the generated slides. Every position and size is a
 literal number of inches in the generator, written with at most two decimals;
 here each is the exact integer number of hundredths of an inch.
 */
module Layout {

  /** A shape's frame: its top-left corner and its size, in hundredths of an inch. */
  datatype Rect = Rect(left: int, top: int, width: nat, height: nat)

  function Right(r: Rect): int { r.left + r.width }
  function Bottom(r: Rect): int { r.top + r.height }

  /** The frame `inner` lies within the frame `outer` (edges may touch). */
  predicate Inside(inner: Rect, outer: Rect) {
    outer.left <= inner.left && Right(inner) <= Right(outer)
    && outer.top <= inner.top && Bottom(inner) <= Bottom(outer)
  }

  /** The frame `a` ends at or above the start of `b`. */
  predicate Above(a: Rect, b: Rect) {
    Bottom(a) <= b.top
  }

  /** The 10 x 7.5 inch slide. */
  const Canvas: Rect := Rect(0, 0, 1000, 750)

  // The title slide

  const TitleCard: Rect := Rect(70, 160, 860, 320)
  const TopicBox: Rect := Rect(100, 210, 800, 150)
  const SubtitleGap: int := 20
  const SubtitleHeight: nat := 70

  /** The subtitle sits `SubtitleGap` below whatever frame the topic box has. */
  function SubtitleFrame(topic: Rect): (r: Rect)
    ensures r.left == topic.left && r.width == topic.width
    ensures Above(topic, r) && r.top - Bottom(topic) == SubtitleGap
  {
    Rect(topic.left, topic.top + topic.height + SubtitleGap, topic.width, SubtitleHeight)
  }

  const SubtitleBox: Rect := SubtitleFrame(TopicBox)

  // A content slide

  /** The rotated background overlay, deliberately larger than the slide. */
  const OverlayRect: Rect := Rect(-100, -50, 600, 850)
  const HeaderBar: Rect := Rect(50, 30, 900, 110)
  const HeadingBox: Rect := Rect(70, 45, 860, 90)
  const AccentLine: Rect := Rect(70, 140, 860, 6)
  const ContentCard: Rect := Rect(80, 175, 840, 480)
  const ContentBox: Rect := Rect(100, 190, 800, 440)
  const SlideNumberBox: Rect := Rect(900, 700, 50, 30)

  /** `Inside` is a partial order on frames. */
  lemma InsideTransitive(a: Rect, b: Rect, c: Rect)
    requires Inside(a, b) && Inside(b, c)
    ensures Inside(a, c)
  {
  }

  /**
   The nesting of the slides' frames: each text box lies within the card or bar
   drawn behind it, the subtitle starts below the topic box, and every frame
   except the overlay lies on the slide.
   */
  lemma LayoutContainment()
    ensures Inside(ContentBox, ContentCard)
    ensures Inside(HeadingBox, HeaderBar)
    ensures Inside(TopicBox, TitleCard) && Inside(SubtitleBox, TitleCard)
    ensures Above(TopicBox, SubtitleBox) && SubtitleBox.top == 380
    ensures Inside(TitleCard, Canvas) && Inside(TopicBox, Canvas) && Inside(SubtitleBox, Canvas)
    ensures Inside(HeaderBar, Canvas) && Inside(HeadingBox, Canvas) && Inside(AccentLine, Canvas)
    ensures Inside(ContentCard, Canvas) && Inside(ContentBox, Canvas) && Inside(SlideNumberBox, Canvas)
    ensures !Inside(OverlayRect, Canvas)
  {
  }

  /** Top to bottom, a content slide stacks header bar, accent line, content card and slide number without overlap. */
  lemma ContentSlideStacking()
    ensures Above(HeaderBar, AccentLine) && Above(AccentLine, ContentCard) && Above(ContentCard, SlideNumberBox)
    ensures Above(HeadingBox, AccentLine)
  {
  }
}

=== FILE: normalize.dfy ===
/**
 Text normalisation of generated slide content: `clean_text_formatting`
 (three regular-expression substitutions and a final strip) followed by the
 split into bullet lines. The substitutions are modelled with Python `re`
 semantics: leftmost, non-overlapping matches; a lazy `(.+?)` that cannot cross a
 line break; a multi-line `^` that looks at the character before the position
 in the text being rewritten; and a greedy `\s*` that does cross line breaks.
 */
module Normalize {
  import opened Wrappers
  import opened Strings

  // ---------------------------------------------------------------------------
  // Steps 1 and 2: `**x**` and `*x*` emphasis

  /** The two emphasis delimiters: `**` for bold, `*` for italic. */
  const Bold: string := "**"
  const Italic: string := "*"

  /** `d` is a non-empty run of asterisks, as both delimiters are. */
  predicate IsStarRun(d: string) {
    |d| > 0 && forall m :: 0 <= m < |d| ==> d[m] == '*'
  }

  predicate IsStar(c: char) {
    c == '*'
  }

  /** `s` with every character satisfying `gone` deleted, the rest kept in order. */
  function Drop(s: string, gone: char -> bool): (r: string)
    ensures |r| <= |s|
  {
    if |s| == 0 then [] else (if gone(s[0]) then [] else [s[0]]) + Drop(s[1..], gone)
  }

  lemma {:induction false} DropAppend(a: string, b: string, gone: char -> bool)
    ensures Drop(a + b, gone) == Drop(a, gone) + Drop(b, gone)
    decreases |a|
  {
    if |a| > 0 {
      assert (a + b)[1..] == a[1..] + b;
      DropAppend(a[1..], b, gone);
    } else {
      assert a + b == b;
    }
  }

  lemma {:induction false} DropAll(s: string, gone: char -> bool)
    requires forall m :: 0 <= m < |s| ==> gone(s[m])
    ensures Drop(s, gone) == []
    decreases |s|
  {
    if |s| > 0 { DropAll(s[1..], gone); }
  }

  /**
   A match opened by `d` at the front of `s` can close at `q`: the inner text
   `s[|d|..q]` is non-empty and on one line, and `d` occurs again at `q`.
   */
  ghost predicate ClosesAt(s: string, d: string, q: int) {
    |d| < q && q + |d| <= |s| && s[q..q + |d|] == d
    && forall m :: |d| <= m < q ==> s[m] != '\n'
  }

  /**
   Where the lazy group `(.+?)` of a match opened by `d` at the front of `s`
   ends: the least closing position from `q` on. The search gives up at the
   first line break, since `.` does not match one.
   */
  function FindClose(s: string, d: string, q: nat): (r: Option<nat>)
    requires |d| > 0 && |d| < q
    requires forall m :: |d| <= m < q - 1 ==> m < |s| && s[m] != '\n'
    ensures r.Some? ==> q <= r.value && ClosesAt(s, d, r.value)
    ensures forall q' :: q <= q' && (r.None? || q' < r.value) ==> !ClosesAt(s, d, q')
    decreases |s| + 1 - q
  {
    if q > |s| || s[q - 1] == '\n' then None
    else if d <= s[q..] then
      assert s[q..q + |d|] == s[q..][..|d|];
      Some(q)
    else
      assert !ClosesAt(s, d, q) by {
        if q + |d| <= |s| { assert s[q..q + |d|] == s[q..][..|d|]; }
      }
      FindClose(s, d, q + 1)
  }

  /**
   `re.sub(<d>(.+?)<d>, r'\1', s)` for a delimiter `d` of asterisks: scanning
   from the left, each match is replaced by its inner text and scanning resumes
   after it; a `d` that does not close is kept as an ordinary character. Only
   asterisks are ever removed, and text without asterisks is left as it is.
   */
  function StripEmphasis(s: string, d: string): (r: string)
    requires IsStarRun(d)
    ensures Drop(r, IsStar) == Drop(s, IsStar)
    ensures '*' !in s ==> r == s
    decreases |s|
  {
    if |s| == 0 then []
    else if d <= s then
      match FindClose(s, d, |d| + 1)
      case Some(q) =>
        var r := s[|d|..q] + StripEmphasis(s[q + |d|..], d);
        DropMatch(s, d, q);
        DropAppend(s[|d|..q], StripEmphasis(s[q + |d|..], d), IsStar);
        assert s[0] == d[0];
        r
      case None => KeepFirst(s, d)
    else KeepFirst(s, d)
  }

  /** Replacing a match by its inner text deletes only the asterisks of the two delimiters. */
  lemma DropMatch(s: string, d: string, q: int)
    requires IsStarRun(d) && d <= s && ClosesAt(s, d, q)
    ensures Drop(s, IsStar) == Drop(s[|d|..q], IsStar) + Drop(s[q + |d|..], IsStar)
  {
    var inner, close, rest := s[|d|..q], s[q..q + |d|], s[q + |d|..];
    assert s == s[..|d|] + inner + close + rest;
    assert s[..|d|] == d;
    DropAll(d, IsStar);
    DropAppend(s[..|d|] + inner + close, rest, IsStar);
    DropAppend(s[..|d|] + inner, close, IsStar);
    DropAppend(s[..|d|], inner, IsStar);
  }

  /** The scan step that copies the first character of `s` and moves on. */
  function KeepFirst(s: string, d: string): (r: string)
    requires IsStarRun(d) && |s| > 0
    ensures Drop(r, IsStar) == Drop(s, IsStar)
    ensures '*' !in s ==> r == s
    decreases |s|, 0
  {
    var r := [s[0]] + StripEmphasis(s[1..], d);
    assert Drop(r, IsStar) == Drop(s, IsStar) by {
      DropAppend([s[0]], StripEmphasis(s[1..], d), IsStar);
      DropAppend([s[0]], s[1..], IsStar);
      assert s == [s[0]] + s[1..];
    }
    assert '*' !in s ==> r == s by {
      if '*' !in s { assert s == [s[0]] + s[1..]; }
    }
    r
  }


  /** The scan copies a first character that cannot open a match. */
  lemma EmphasisCopies(s: string, d: string)
    requires IsStarRun(d) && |s| > 0 && s[0] != '*'
    ensures StripEmphasis(s, d) == [s[0]] + StripEmphasis(s[1..], d)
  {
  }

  /** The scan copies a first character at which no delimiter starts: a non-asterisk at `m` is in the way. */
  lemma EmphasisNotOpened(s: string, d: string, m: nat)
    requires IsStarRun(d) && m < |d| && m < |s| && s[m] != '*'
    ensures StripEmphasis(s, d) == [s[0]] + StripEmphasis(s[1..], d)
  {
    if |d| <= |s| { assert s[..|d|][m] == s[m] != d[m]; }
  }

  /** A stretch of text without asterisks passes the emphasis substitution unchanged. */
  lemma {:induction false} EmphasisPlain(a: string, b: string, d: string)
    requires IsStarRun(d) && '*' !in a
    ensures StripEmphasis(a + b, d) == a + StripEmphasis(b, d)
    decreases |a|
  {
    if |a| > 0 {
      ConsRegroup(a, b);
      TailLacks(a, '*');
      EmphasisCopies(a + b, d);
      EmphasisPlain(a[1..], b, d);
      ConsRegroup(a, StripEmphasis(b, d));
    } else {
      assert a + b == b;
    }
  }

  /** The least closing position is what the lazy search finds. */
  lemma FindCloseLeast(s: string, d: string, q: int)
    requires |d| > 0 && ClosesAt(s, d, q)
    requires forall q' :: |d| < q' < q ==> !ClosesAt(s, d, q')
    ensures FindClose(s, d, |d| + 1) == Some(q)
  {
    var r := FindClose(s, d, |d| + 1);
  }

  /** The slices of a delimited text `d + x + d + b`. */
  lemma PairSlices(x: string, b: string, d: string)
    ensures var s, q := d + x + d + b, |d| + |x|;
      s[..|d|] == d && s[|d|..q] == x && s[q..q + |d|] == d && s[q + |d|..] == b
  {
  }

  /**
   A delimited single-line text without asterisks is replaced by its inner
   text: `**x**` becomes `x` in the bold pass, `*x*` in the italic pass.
   */
  lemma EmphasisPair(x: string, b: string, d: string)
    requires IsStarRun(d) && x != [] && '*' !in x && '\n' !in x
    ensures StripEmphasis(d + x + d + b, d) == x + StripEmphasis(b, d)
  {
    var s := d + x + d + b;
    var q := |d| + |x|;
    PairSlices(x, b, d);
    assert d <= s;
    forall m | |d| <= m < q
      ensures s[m] == x[m - |d|] && s[m] != '\n' && s[m] != '*'
    {
      assert s[|d|..q][m - |d|] == s[m];
      assert x[m - |d|] in x;
    }
    assert ClosesAt(s, d, q);
    forall q' | |d| < q' < q
      ensures !ClosesAt(s, d, q')
    {
      if q' + |d| <= |s| { assert s[q'..q' + |d|][0] == s[q']; }
    }
    FindCloseLeast(s, d, q);
  }

  /**
   A delimiter with no closing delimiter before the end of its line is kept as
   an ordinary character.
   */
  lemma EmphasisUnclosed(x: string, b: string, d: string)
    requires IsStarRun(d) && '*' !in x && '\n' !in x
    ensures StripEmphasis(d + x + "\n" + b, d) == [d[0]] + StripEmphasis((d + x + "\n" + b)[1..], d)
  {
    var s := d + x + "\n" + b;
    var nl := |d| + |x|;
    assert s[..|d|] == d && s[nl] == '\n';
    assert d <= s;
    forall q' | |d| < q'
      ensures !ClosesAt(s, d, q')
    {
      if q' <= nl {
        if q' + |d| <= |s| {
          assert s[q'..q' + |d|][0] == s[q'];
          if q' < nl { assert s[q'] == x[q' - |d|]; }
        }
      } else {
        assert |d| <= nl < q' && s[nl] == '\n';
      }
    }
    var r := FindClose(s, d, |d| + 1);
    assert r == None;
  }

  // ---------------------------------------------------------------------------
  // Step 3: one leading bullet per line

  /** The bullet glyphs the third substitution removes: `*`, `-` and `•`. */
  predicate IsBullet(c: char) {
    c == '*' || c == '-' || c == '\U{2022}'
  }

  /** How far the greedy `\s*` reaches from the front of `s`; it runs across line breaks. */
  function SpaceRun(s: string): (n: nat)
    ensures n <= |s| && AllSpace(s[..n])
    ensures n == |s| || !IsSpace(s[n])
  {
    if |s| > 0 && IsSpace(s[0]) then
      var n := 1 + SpaceRun(s[1..]);
      assert s[..n] == [s[0]] + s[1..][..n - 1];
      n
    else 0
  }

  /**
   `re.sub(r'^[\*\-•]\s*', '', s, flags=re.MULTILINE)` scanning the rest `s` of
   the text; `lineStart` says whether `^` holds at the front of `s`, that is,
   whether `s` starts the text or follows a line break of the original text.
   A match removes the bullet and all whitespace after it.
   */
  function StripBulletsFrom(s: string, lineStart: bool): (r: string)
    ensures |r| <= |s|
    decreases |s|
  {
    if |s| == 0 then []
    else if lineStart && IsBullet(s[0]) then
      var n := SpaceRun(s[1..]);
      StripBulletsFrom(s[1 + n..], n > 0 && s[n] == '\n')
    else [s[0]] + StripBulletsFrom(s[1..], s[0] == '\n')
  }

  /** The bullet pass over the whole text, where `^` holds at the front. */
  function StripBullets(s: string): (r: string)
    ensures |r| <= |s|
  {
    StripBulletsFrom(s, true)
  }

  /** A text without bullet characters passes the bullet pass unchanged. */
  lemma {:induction false} BulletsPlain(s: string, lineStart: bool)
    requires forall i :: 0 <= i < |s| ==> !IsBullet(s[i])
    ensures StripBulletsFrom(s, lineStart) == s
    decreases |s|
  {
    if |s| > 0 {
      assert forall i :: 0 <= i < |s[1..]| ==> !IsBullet(s[1..][i]) by {
        forall i | 0 <= i < |s[1..]| ensures !IsBullet(s[1..][i]) { assert s[1..][i] == s[i + 1]; }
      }
      BulletsPlain(s[1..], s[0] == '\n');
      assert s == [s[0]] + s[1..];
    }
  }

  /** A line with its leading bullet and the whitespace after it removed, if it has one. */
  function LineWithoutBullet(line: string): string {
    if |line| > 0 && IsBullet(line[0]) then TrimStart(line[1..]) else line
  }

  /** The greedy whitespace run is what `TrimStart` removes. */
  lemma {:induction false} SpaceRunTrims(s: string)
    ensures TrimStart(s) == s[SpaceRun(s)..]
    decreases |s|
  {
    if |s| > 0 && IsSpace(s[0]) {
      SpaceRunTrims(s[1..]);
    }
  }

  /** The whitespace run stops inside `x` when `x` holds a non-space, whatever follows. */
  lemma {:induction false} SpaceRunStops(x: string, y: string)
    requires !AllSpace(x)
    ensures SpaceRun(x + y) == SpaceRun(x) < |x|
    decreases |x|
  {
    assert (x + y)[0] == x[0];
    if IsSpace(x[0]) {
      assert (x + y)[1..] == x[1..] + y;
      SpaceRunStops(x[1..], y);
    }
  }

  /** Away from a line start nothing is removed from a single line. */
  lemma {:induction false} BulletsMidLine(x: string)
    requires '\n' !in x
    ensures StripBulletsFrom(x, false) == x
    decreases |x|
  {
    if |x| > 0 {
      BulletsMidLine(x[1..]);
      assert x == [x[0]] + x[1..];
    }
  }

  /** On a single line the substitution removes one leading bullet and the whitespace after it. */
  lemma BulletsOneLine(line: string)
    requires '\n' !in line
    ensures StripBullets(line) == LineWithoutBullet(line)
  {
    if |line| > 0 && IsBullet(line[0]) {
      var n := SpaceRun(line[1..]);
      SpaceRunTrims(line[1..]);
      assert line[1..][n..] == line[1 + n..];
      if n > 0 { assert line[n] == line[1..][n - 1]; }
      BulletsMidLine(line[1 + n..]);
    } else if |line| > 0 {
      BulletsMidLine(line[1..]);
      assert line == [line[0]] + line[1..];
    }
  }

  /** A line that is a bullet and nothing else: the greedy `\s*` swallows its line break. */
  predicate IsBareBullet(line: string) {
    |line| > 0 && IsBullet(line[0]) && AllSpace(line[1..])
  }

  /**
   Unless the first line is a bare bullet at a line start, the substitution
   works line by line: the first line and the rest are rewritten separately
   and the line break between them is kept.
   */
  lemma {:induction false} BulletsAround(a: string, b: string, lineStart: bool)
    requires '\n' !in a
    requires !(lineStart && IsBareBullet(a))
    ensures StripBulletsFrom(a + "\n" + b, lineStart)
         == StripBulletsFrom(a, lineStart) + "\n" + StripBulletsFrom(b, true)
    decreases |a|, 1
  {
    if |a| == 0 {
      assert a + "\n" + b == "\n" + b && (a + "\n" + b)[1..] == b;
    } else if lineStart && IsBullet(a[0]) {
      BulletsAroundMatch(a, b);
    } else {
      BulletsAroundCopy(a, b, lineStart);
    }
  }

  /** The step of `BulletsAround` where the first line starts with a bullet that has text after it. */
  lemma {:induction false} BulletsAroundMatch(a: string, b: string)
    requires '\n' !in a && |a| > 0 && IsBullet(a[0]) && !IsBareBullet(a)
    ensures StripBulletsFrom(a + "\n" + b, true)
         == StripBulletsFrom(a, true) + "\n" + StripBulletsFrom(b, true)
    decreases |a|, 0
  {
    var n := SpaceRun(a[1..]);
    AroundBulletSlices(a, b);
    var s := a + "\n" + b;
    BulletsMatchStep(s, n, s[1 + n..], n > 0 && s[n] == '\n');
    BulletsMatchStep(a, n, a[1 + n..], n > 0 && a[n] == '\n');
    TailAfterLacks(a, 1 + n, '\n');
    BulletsAround(a[1 + n..], b, false);
  }

  /** The step of `BulletsAround` where the first character of the first line is copied. */
  lemma {:induction false} BulletsAroundCopy(a: string, b: string, lineStart: bool)
    requires '\n' !in a && |a| > 0 && !(lineStart && IsBullet(a[0]))
    ensures StripBulletsFrom(a + "\n" + b, lineStart)
         == StripBulletsFrom(a, lineStart) + "\n" + StripBulletsFrom(b, true)
    decreases |a|, 0
  {
    var s := a + "\n" + b;
    var t := a[1..] + "\n" + b;
    assert s[0] == a[0] && s[1..] == t by {
      assert s == a + ("\n" + b);
      ConsRegroup(a, "\n" + b);
      assert a[1..] + ("\n" + b) == t;
    }
    TailLacks(a, '\n');
    var x, y := StripBulletsFrom(a[1..], false), StripBulletsFrom(b, true);
    assert StripBulletsFrom(s, lineStart) == [a[0]] + StripBulletsFrom(t, false) by {
      BulletsCopyStep(s, lineStart);
    }
    assert StripBulletsFrom(a, lineStart) == [a[0]] + x by {
      BulletsCopyStep(a, lineStart);
    }
    assert StripBulletsFrom(t, false) == x + "\n" + y by {
      BulletsAround(a[1..], b, false);
    }
    assert [a[0]] + (x + "\n" + y) == ([a[0]] + x) + "\n" + y;
  }

  /** At a line start the scan drops a bullet and the whitespace run after it. */
  lemma BulletsMatchStep(s: string, n: nat, rest: string, again: bool)
    requires |s| > 0 && IsBullet(s[0]) && n == SpaceRun(s[1..])
    requires rest == s[1 + n..] && again == (n > 0 && s[n] == '\n')
    ensures StripBulletsFrom(s, true) == StripBulletsFrom(rest, again)
  {
  }

  /** The scan copies a first character that is not a bullet at a line start. */
  lemma BulletsCopyStep(s: string, lineStart: bool)
    requires |s| > 0 && !(lineStart && IsBullet(s[0]))
    ensures StripBulletsFrom(s, lineStart) == [s[0]] + StripBulletsFrom(s[1..], s[0] == '\n')
  {
  }

  /** Where the match of a leading bullet ends when its line has more than whitespace after the bullet. */
  lemma AroundBulletSlices(a: string, b: string)
    requires '\n' !in a && |a| > 0 && IsBullet(a[0]) && !IsBareBullet(a)
    ensures var s, n := a + "\n" + b, SpaceRun(a[1..]);
      && 1 + n < |a| && s[0] == a[0]
      && SpaceRun(s[1..]) == n
      && s[1 + n..] == a[1 + n..] + "\n" + b
      && (n > 0 ==> s[n] != '\n' && a[n] != '\n')
  {
    var s := a + "\n" + b;
    assert s[1..] == a[1..] + ("\n" + b);
    SpaceRunStops(a[1..], "\n" + b);
    var n := SpaceRun(a[1..]);
    if n > 0 { assert s[n] == a[n] && a[n] in a; }
  }

  /** A bare bullet line disappears together with its line break, and the next line still counts as a line start. */
  lemma BareBulletJoinsNextLine(c: char, w: string, b: string)
    requires IsBullet(c) && AllSpace(w) && '\n' !in w
    requires b == [] || !IsSpace(b[0])
    ensures StripBullets([c] + w + "\n" + b) == StripBullets(b)
  {
    var s := [c] + w + "\n" + b;
    var t := w + "\n" + b;
    assert s[1..] == t;
    assert SpaceRun(t) == |w| + 1 by {
      SpaceRunOver(w + "\n", b);
      assert t == (w + "\n") + b;
    }
    assert s[|w| + 1] == '\n';
    assert s[1 + (|w| + 1)..] == b;
  }

  /** The whitespace run covers an all-space prefix and stops at the first non-space after it. */
  lemma {:induction false} SpaceRunOver(w: string, b: string)
    requires AllSpace(w) && (b == [] || !IsSpace(b[0]))
    ensures SpaceRun(w + b) == |w|
    decreases |w|
  {
    if |w| > 0 {
      assert (w + b)[0] == w[0] && (w + b)[1..] == w[1..] + b;
      SpaceRunOver(w[1..], b);
    } else {
      assert w + b == b;
    }
  }

  /** The whitespace run crosses an all-space prefix and carries on into what follows it. */
  lemma {:induction false} SpaceRunAcross(w: string, b: string)
    requires AllSpace(w)
    ensures SpaceRun(w + b) == |w| + SpaceRun(b)
    decreases |w|
  {
    if |w| > 0 {
      assert (w + b)[0] == w[0] && (w + b)[1..] == w[1..] + b;
      SpaceRunAcross(w[1..], b);
    } else {
      assert w + b == b;
    }
  }

  /**
   A bare bullet line in general: the greedy `\s*` takes its line break and then
   every blank line and the indentation at the front of `b`. `^` holds where it
   stops exactly when the last character it took is a line break.
   */
  lemma BareBulletSwallowsSpace(c: char, w: string, b: string)
    requires IsBullet(c) && AllSpace(w) && '\n' !in w
    ensures var m := SpaceRun(b);
      StripBullets([c] + w + "\n" + b) == StripBulletsFrom(b[m..], m == 0 || b[m - 1] == '\n')
  {
    var s := [c] + w + "\n" + b;
    var t := w + "\n" + b;
    var m := SpaceRun(b);
    assert s[1..] == t;
    assert AllSpace(w + "\n") by {
      forall i | 0 <= i < |w + "\n"| ensures IsSpace((w + "\n")[i]) {
        if i < |w| { assert (w + "\n")[i] == w[i]; }
      }
    }
    assert t == (w + "\n") + b;
    SpaceRunAcross(w + "\n", b);
    var n := |w| + 1 + m;
    assert SpaceRun(s[1..]) == n;
    assert (n > 0 && s[n] == '\n') == (m == 0 || b[m - 1] == '\n') by {
      if m == 0 { assert s[n] == '\n'; } else { assert s[n] == b[m - 1]; }
    }
    assert s[1 + n..] == b[m..];
    BulletsMatchStep(s, n, b[m..], m == 0 || b[m - 1] == '\n');
  }

  // ---------------------------------------------------------------------------
  // Step 4 and the split into bullet lines

  /** `clean_text_formatting`: bold, then italic, then bullets, then `strip()`. */
  function CleanTextFormatting(text: string): (r: string)
    ensures IsStripped(r)
  {
    Strip(StripBullets(StripEmphasis(StripEmphasis(text, Bold), Italic)))
  }

  /** `[p.strip() for p in parts if p.strip()]`. */
  function StrippedNonBlank(parts: seq<string>): (lines: seq<string>)
    ensures |lines| <= |parts|
    ensures forall k :: 0 <= k < |lines| ==> lines[k] != [] && IsStripped(lines[k])
  {
    if |parts| == 0 then []
    else
      Kept(parts[0]) + StrippedNonBlank(parts[1..])
  }

  /** What one part contributes: its stripped text, or nothing when it is blank. */
  function Kept(part: string): (r: seq<string>)
    ensures |r| <= 1
    ensures forall k :: 0 <= k < |r| ==> r[k] != [] && IsStripped(r[k])
    ensures r == [] <==> AllSpace(part)
  {
    StripEmptyIff(part);
    if Strip(part) == [] then [] else [Strip(part)]
  }

  /** The bullet lines of a cleaned text: split on `\n`, strip each line, drop the blank ones. */
  function BulletLines(text: string): (lines: seq<string>)
    ensures |lines| <= |Split(text, '\n')|
    ensures forall k :: 0 <= k < |lines| ==> lines[k] != [] && IsStripped(lines[k])
  {
    StrippedNonBlank(Split(text, '\n'))
  }

  /** The lines rendered in a content slide's text box for a section's `content`. */
  function ContentLines(content: string): (lines: seq<string>)
    ensures forall k :: 0 <= k < |lines| ==> lines[k] != [] && IsStripped(lines[k])
  {
    BulletLines(CleanTextFormatting(content))
  }

  lemma {:induction false} StrippedNonBlankAppend(p: seq<string>, q: seq<string>)
    ensures StrippedNonBlank(p + q) == StrippedNonBlank(p) + StrippedNonBlank(q)
    decreases |p|
  {
    if |p| > 0 {
      calc {
        StrippedNonBlank(p + q);
      == { StrippedNonBlankCons(p, q); }
        Kept(p[0]) + StrippedNonBlank(p[1..] + q);
      == { StrippedNonBlankAppend(p[1..], q); }
        Kept(p[0]) + (StrippedNonBlank(p[1..]) + StrippedNonBlank(q));
      == { SeqAssoc(Kept(p[0]), StrippedNonBlank(p[1..]), StrippedNonBlank(q)); }
        (Kept(p[0]) + StrippedNonBlank(p[1..])) + StrippedNonBlank(q);
      == { StrippedNonBlankCons(p, q); }
        StrippedNonBlank(p) + StrippedNonBlank(q);
      }
    } else {
      StrippedNonBlankEmpty(p, q);
    }
  }

  lemma SeqAssoc(a: seq<string>, b: seq<string>, c: seq<string>)
    ensures a + (b + c) == (a + b) + c
  {
  }

  lemma StrippedNonBlankEmpty(p: seq<string>, q: seq<string>)
    requires |p| == 0
    ensures p + q == q && StrippedNonBlank(p) == [] && StrippedNonBlank(p) + StrippedNonBlank(q) == StrippedNonBlank(q)
  {
  }

  /** The first part of `p` also comes first in `p + q`. */
  lemma StrippedNonBlankCons(p: seq<string>, q: seq<string>)
    requires |p| > 0
    ensures StrippedNonBlank(p + q) == Kept(p[0]) + StrippedNonBlank(p[1..] + q)
    ensures StrippedNonBlank(p) == Kept(p[0]) + StrippedNonBlank(p[1..])
  {
    assert (p + q)[0] == p[0] && (p + q)[1..] == p[1..] + q;
  }

  /**
   A line break separates bullet lines: the lines of `a` come first, then those
   of `b`, in order; nothing is merged, reordered or deduplicated.
   */
  lemma BulletLinesAround(a: string, b: string)
    ensures BulletLines(a + "\n" + b) == BulletLines(a) + BulletLines(b)
  {
    SplitAround(a, b, '\n');
    assert a + "\n" + b == a + ['\n'] + b;
    StrippedNonBlankAppend(Split(a, '\n'), Split(b, '\n'));
  }

  /** A single line yields its stripped text, or nothing when it is blank. */
  lemma BulletLinesOneLine(line: string)
    requires '\n' !in line
    ensures BulletLines(line) == if AllSpace(line) then [] else [Strip(line)]
  {
    SplitSingle(line, '\n');
    StripEmptyIff(line);
    assert [line][1..] == [];
  }

  /** A stripped line that is not blank is its own bullet line. */
  lemma OneStrippedLine(line: string)
    requires '\n' !in line && line != [] && IsStripped(line)
    ensures BulletLines(line) == [line]
  {
    assert SpaceFramed(line, line, 0) by {
      assert line[..0] == [] && line[|line|..] == [] && line[0..|line|] == line;
    }
    StripUnique(line, line, 0);
    BulletLinesOneLine(line);
  }

  // The cleaning of `"**Bold** and *italic*\n- item one\n* item two\n\n"` is
  // proved on its shape, with the words as parameters and the literal named only
  // at the end: each pass is a chain of the scanning lemmas above.

  lemma BoldPassShape(x: string, a: string, b: string, c: string, e: string)
    requires x != [] && '*' !in x && '\n' !in x
    requires '*' !in a && '*' !in b && '*' !in c && '*' !in e
    requires b != [] && c != [] && e != []
    ensures StripEmphasis(Bold + x + Bold + (a + ("*" + (b + ("*" + (c + ("*" + e)))))), Bold)
         == x + (a + ("*" + (b + ("*" + (c + ("*" + e))))))
  {
    var r4 := "*" + e;
    var r3 := c + r4;
    var r2 := "*" + b + r3;
    var t3 := "*" + (c + ("*" + e));
    var t2 := "*" + (b + t3);
    var t1 := a + t2;
    assert StripEmphasis(r4, Bold) == r4 by { StarThenPlain(e, []); assert e + [] == e; }
    assert StripEmphasis(t3, Bold) == t3 by { StarThenPlain(c, r4); }
    assert StripEmphasis(t2, Bold) == t2 by { StarThenPlain(b, t3); }
    assert StripEmphasis(t1, Bold) == t1 by { EmphasisPlain(a, t2, Bold); }
    EmphasisPair(x, t1, Bold);
  }

  /** A lone asterisk before a non-empty stretch without asterisks is copied in the bold pass. */
  lemma StarThenPlain(b: string, rest: string)
    requires b != [] && '*' !in b
    ensures StripEmphasis("*" + (b + rest), Bold) == "*" + (b + StripEmphasis(rest, Bold))
  {
    var s := "*" + (b + rest);
    assert s[1] == b[0] && b[0] in b;
    EmphasisNotOpened(s, Bold, 1);
    assert s[1..] == b + rest;
    EmphasisPlain(b, rest, Bold);
  }

  lemma ItalicPassShape(a: string, x: string, c: string, e: string, g: string)
    requires x != [] && '*' !in x && '\n' !in x
    requires '*' !in a && '*' !in c && '*' !in e && '\n' !in e && '*' !in g
    ensures StripEmphasis(a + ("*" + (x + ("*" + (c + ("*" + (e + ("\n" + g))))))), Italic)
         == a + (x + (c + ("*" + (e + ("\n" + g)))))
  {
    ItalicPlainThenUnclosed(c, e, g);
    ItalicPairThen(x, c + ("*" + (e + ("\n" + g))));
    EmphasisPlain(a, "*" + (x + ("*" + (c + ("*" + (e + ("\n" + g)))))), Italic);
  }

  /** `*x*` at the front is replaced by `x` when the rest is already unchanged by the pass. */
  lemma ItalicPairThen(x: string, u: string)
    requires x != [] && '*' !in x && '\n' !in x
    requires StripEmphasis(u, Italic) == u
    ensures StripEmphasis("*" + (x + ("*" + u)), Italic) == x + u
  {
    assert Italic + x + Italic + u == "*" + (x + ("*" + u));
    EmphasisPair(x, u, Italic);
  }

  lemma ItalicPlainThenUnclosed(c: string, e: string, g: string)
    requires '*' !in c && '*' !in e && '\n' !in e && '*' !in g
    ensures StripEmphasis(c + ("*" + (e + ("\n" + g))), Italic) == c + ("*" + (e + ("\n" + g)))
  {
    ItalicUnclosed(e, g);
    EmphasisPlain(c, "*" + (e + ("\n" + g)), Italic);
  }

  /** An italic marker whose line ends before any other asterisk stays in the text. */
  lemma ItalicUnclosed(e: string, g: string)
    requires '*' !in e && '\n' !in e && '*' !in g
    ensures StripEmphasis("*" + (e + ("\n" + g)), Italic) == "*" + (e + ("\n" + g))
  {
    EmphasisUnclosed(e, g, Italic);
    AfterMarker(e, g);
    assert Italic + e + "\n" + g == "*" + (e + ("\n" + g));
  }

  lemma AfterMarker(e: string, g: string)
    ensures (Italic + e + "\n" + g)[1..] == e + ("\n" + g)
  {
  }

  lemma BulletPassShape(l1: string, b2: char, w2: string, m2: string, b3: char, w3: string, m3: string)
    requires '\n' !in l1 && (l1 == [] || !IsBullet(l1[0]))
    requires IsBullet(b2) && AllSpace(w2) && '\n' !in w2 && '\n' !in m2 && m2 != [] && !IsSpace(m2[0])
    requires IsBullet(b3) && AllSpace(w3) && '\n' !in w3 && '\n' !in m3 && m3 != [] && !IsSpace(m3[0])
    ensures StripBullets(l1 + ("\n" + (([b2] + w2 + m2) + ("\n" + (([b3] + w3 + m3) + ("\n" + "\n"))))))
         == l1 + ("\n" + (m2 + ("\n" + (m3 + ("\n" + "\n")))))
  {
    BulletsNewline();
    BulletLineThen(b3, w3, m3, "\n");
    BulletLineThen(b2, w2, m2, ([b3] + w3 + m3) + ("\n" + "\n"));
    PlainLineThen(l1, ([b2] + w2 + m2) + ("\n" + (([b3] + w3 + m3) + ("\n" + "\n"))));
  }

  lemma BulletsNewline()
    ensures StripBullets("\n") == "\n"
  {
    BulletsAround([], [], true);
    assert [] + "\n" + [] == "\n";
  }

  /** A line without a leading bullet is kept, and the next line starts afresh. */
  lemma PlainLineThen(l: string, t: string)
    requires '\n' !in l && (l == [] || !IsBullet(l[0]))
    ensures StripBullets(l + ("\n" + t)) == l + ("\n" + StripBullets(t))
  {
    assert StripBullets(l) == l by { BulletsOneLine(l); }
    assert StripBullets(l + "\n" + t) == l + "\n" + StripBullets(t) by {
      BulletsAround(l, t, true);
    }
    assert l + ("\n" + t) == l + "\n" + t;
    assert l + ("\n" + StripBullets(t)) == l + "\n" + StripBullets(t);
  }

  /** A bullet line loses its marker, and the next line starts afresh. */
  lemma BulletLineThen(c: char, w: string, m: string, t: string)
    requires IsBullet(c) && AllSpace(w) && '\n' !in w && '\n' !in m && m != [] && !IsSpace(m[0])
    ensures StripBullets(([c] + w + m) + ("\n" + t)) == m + ("\n" + StripBullets(t))
  {
    BulletLineDropsMarker(c, w, m);
    assert ([c] + w + m) + ("\n" + t) == ([c] + w + m) + "\n" + t;
    BulletsAround([c] + w + m, t, true);
  }

  /** A bullet line with text after the marker: marker and whitespace go, the text stays. */
  lemma BulletLineDropsMarker(c: char, w: string, m: string)
    requires IsBullet(c) && AllSpace(w) && '\n' !in w && '\n' !in m && m != [] && !IsSpace(m[0])
    ensures !IsBareBullet([c] + w + m) && '\n' !in [c] + w + m
    ensures StripBullets([c] + w + m) == m
  {
    var line := [c] + w + m;
    assert line[1..] == w + m;
    assert line[1 + |w|] == m[0];
    BulletsOneLine(line);
    SpaceRunOver(w, m);
    SpaceRunTrims(w + m);
    assert (w + m)[|w|..] == m;
  }

  /** A line that the split keeps as it is: non-empty, on one line, stripped. */
  predicate IsCleanLine(m: string) {
    m != [] && '\n' !in m && IsStripped(m)
  }

  lemma LinesShape(m1: string, m2: string, m3: string)
    requires IsCleanLine(m1) && IsCleanLine(m2) && IsCleanLine(m3)
    ensures BulletLines(Strip(m1 + ("\n" + (m2 + ("\n" + (m3 + ("\n" + "\n"))))))) == [m1, m2, m3]
  {
    JoinedStripped(m1, m2, m3);
    StripTrailingBreaks(m1 + ("\n" + (m2 + ("\n" + m3))));
    ThreeLines(m1, m2, m3);
    TrailingRegroup(m1, m2, m3);
  }

  lemma TrailingRegroup(m1: string, m2: string, m3: string)
    ensures m1 + ("\n" + (m2 + ("\n" + (m3 + ("\n" + "\n")))))
         == (m1 + ("\n" + (m2 + ("\n" + m3)))) + ("\n" + "\n")
  {
  }

  lemma ThreeLines(m1: string, m2: string, m3: string)
    requires IsCleanLine(m1) && IsCleanLine(m2) && IsCleanLine(m3)
    ensures BulletLines(m1 + ("\n" + (m2 + ("\n" + m3)))) == [m1, m2, m3]
  {
    TwoLines(m2, m3);
    LineThen(m1, m2 + ("\n" + m3), [m2, m3]);
  }

  lemma TwoLines(m2: string, m3: string)
    requires IsCleanLine(m2) && IsCleanLine(m3)
    ensures BulletLines(m2 + ("\n" + m3)) == [m2, m3]
  {
    OneStrippedLine(m3);
    LineThen(m2, m3, [m3]);
  }

  /** A clean line followed by a line break contributes itself, then the lines of what follows. */
  lemma LineThen(m: string, rest: string, tail: seq<string>)
    requires IsCleanLine(m) && BulletLines(rest) == tail
    ensures BulletLines(m + ("\n" + rest)) == [m] + tail
  {
    OneStrippedLine(m);
    BreakRegroup(m, rest);
    BulletLinesAround(m, rest);
  }

  lemma BreakRegroup(a: string, b: string)
    ensures a + ("\n" + b) == a + "\n" + b
  {
  }

  /** Stripping removes trailing line breaks after a stripped core. */
  lemma StripTrailingBreaks(core: string)
    requires core != [] && IsStripped(core)
    ensures Strip(core + ("\n" + "\n")) == core
  {
    var t := core + ("\n" + "\n");
    assert SpaceFramed(t, core, 0) by {
      assert t[0..|core|] == core && t[..0] == [] && t[|core|..] == "\n\n";
      assert AllSpace("\n\n");
    }
    StripUnique(t, core, 0);
  }

  /** Three clean lines with line breaks between them form a stripped text. */
  lemma JoinedStripped(m1: string, m2: string, m3: string)
    requires IsCleanLine(m1) && IsCleanLine(m3)
    ensures var core := m1 + ("\n" + (m2 + ("\n" + m3))); core != [] && IsStripped(core)
  {
    var core := m1 + ("\n" + (m2 + ("\n" + m3)));
    assert core[0] == m1[0] && core[|core| - 1] == m3[|m3| - 1];
  }

  /**
   The cleaning of a three-line note, for any words: `**x**a*b*` on a first line, then a
   `- ` bullet line and a `* ` bullet line, then a blank line. Bold and italic
   markers are removed keeping their inner text, the two bullet markers are
   removed, the trailing blank lines vanish, and the three lines keep their
   order. (`**Bold** and *italic*`, `item one`, `item two` is one instance.)
   */
  lemma CleanExample(x: string, a: string, b: string, m2: string, m3: string)
    requires x != [] && b != [] && !IsBullet(x[0])
    requires '*' !in x && '*' !in a && '*' !in b && '*' !in m2 && '*' !in m3
    requires IsCleanLine(x + a + b) && IsCleanLine(m2) && IsCleanLine(m3)
    ensures ContentLines(Bold + x + Bold + a + "*" + b + "*\n- " + m2 + "\n* " + m3 + "\n\n")
         == [x + a + b, m2, m3]
  {
    var c, e := "\n- " + m2 + "\n", " " + m3 + "\n\n";
    var s0 := Bold + x + Bold + (a + ("*" + (b + ("*" + (c + ("*" + e))))));
    var s1 := (x + a) + ("*" + (b + ("*" + (c + ("*" + ((" " + m3) + ("\n" + "\n")))))));
    var s2 := (x + a) + (b + (c + ("*" + ((" " + m3) + ("\n" + "\n")))));
    var s3 := (x + a + b) + ("\n" + (m2 + ("\n" + (m3 + ("\n" + "\n")))));
    ExampleInput(x, a, b, m2, m3);
    ExampleAfterBold(x, a, b, m2, m3);
    ExampleAfterItalic(x, a, b, m2, m3);
    assert StripEmphasis(s0, Bold) == s1;
    assert StripEmphasis(s1, Italic) == s2;
    assert StripBullets(s2) == s3;
    LinesShape(x + a + b, m2, m3);
  }

  /**
   The literal input `"**Bold** and *italic*\n- item one\n* item two\n\n"`
   gives the bullet lines `Bold and italic`, `item one` and `item two`.
   */
  lemma CleanLiteral()
    ensures ContentLines("**Bold** and *italic*\n- item one\n* item two\n\n")
         == ["Bold and italic", "item one", "item two"]
  {
    LiteralWords();
    LiteralPieces();
    CleanExample("Bold", " and ", "italic", "item one", "item two");
  }

  /** The words of the literal input meet the requirements of the shape lemma. */
  lemma LiteralWords()
    ensures var x, a, b, m2, m3 := "Bold", " and ", "italic", "item one", "item two";
      && x != [] && b != [] && !IsBullet(x[0])
      && '*' !in x && '*' !in a && '*' !in b && '*' !in m2 && '*' !in m3
      && IsCleanLine(x + a + b) && IsCleanLine(m2) && IsCleanLine(m3)
      && x + a + b == "Bold and italic"
  {
    assert "Bold" + " and " + "italic" == "Bold and italic";
  }

  /** The literal input, assembled from its words and markers. */
  lemma LiteralPieces()
    ensures Bold + "Bold" + Bold + " and " + "*" + "italic" + "*\n- " + "item one" + "\n* " + "item two" + "\n\n"
         == "**Bold** and *italic*\n- item one\n* item two\n\n"
  {
    assert Bold + "Bold" == "**Bold";
    assert "**Bold" + Bold == "**Bold**";
    assert "**Bold**" + " and " == "**Bold** and ";
    assert "**Bold** and " + "*" == "**Bold** and *";
    assert "**Bold** and *" + "italic" == "**Bold** and *italic";
    assert "**Bold** and *italic" + "*\n- " == "**Bold** and *italic*\n- ";
    assert "**Bold** and *italic*\n- " + "item one" == "**Bold** and *italic*\n- item one";
    assert "**Bold** and *italic*\n- item one" + "\n* " == "**Bold** and *italic*\n- item one\n* ";
    assert "**Bold** and *italic*\n- item one\n* " + "item two" == "**Bold** and *italic*\n- item one\n* item two";
  }


  lemma ExampleInput(x: string, a: string, b: string, m2: string, m3: string)
    requires x != [] && b != []
    requires '*' !in x && '*' !in a && '*' !in b && '*' !in m2 && '*' !in m3
    requires '\n' !in x + a + b
    ensures var c, e := "\n- " + m2 + "\n", " " + m3 + "\n\n";
      && Bold + x + Bold + a + "*" + b + "*\n- " + m2 + "\n* " + m3 + "\n\n"
         == Bold + x + Bold + (a + ("*" + (b + ("*" + (c + ("*" + e))))))
      && StripEmphasis(Bold + x + Bold + (a + ("*" + (b + ("*" + (c + ("*" + e)))))), Bold)
         == x + (a + ("*" + (b + ("*" + (c + ("*" + e))))))
  {
    assert '\n' !in x by { assert forall k :: 0 <= k < |x| ==> x[k] == (x + a + b)[k]; }
    BoldPreconditions(m2, m3);
    InputRegroup(x, a, b, m2, m3);
    BoldPassShape(x, a, b, "\n- " + m2 + "\n", " " + m3 + "\n\n");
  }

  lemma BoldPreconditions(m2: string, m3: string)
    requires '*' !in m2 && '*' !in m3
    ensures '*' !in "\n- " + m2 + "\n" && '*' !in " " + m3 + "\n\n"
  {
  }

  lemma InputRegroup(x: string, a: string, b: string, m2: string, m3: string)
    ensures Bold + x + Bold + a + "*" + b + "*\n- " + m2 + "\n* " + m3 + "\n\n"
         == Bold + x + Bold + (a + ("*" + (b + ("*" + (("\n- " + m2 + "\n") + ("*" + (" " + m3 + "\n\n")))))))
  {
  }

  lemma ExampleAfterBold(x: string, a: string, b: string, m2: string, m3: string)
    requires b != [] && '*' !in x && '*' !in a && '*' !in b && '*' !in m2 && '*' !in m3
    requires '\n' !in x + a + b && '\n' !in m3
    ensures var c, e := "\n- " + m2 + "\n", " " + m3 + "\n\n";
      && x + (a + ("*" + (b + ("*" + (c + ("*" + e))))))
         == (x + a) + ("*" + (b + ("*" + (c + ("*" + ((" " + m3) + ("\n" + "\n")))))))
      && StripEmphasis((x + a) + ("*" + (b + ("*" + (c + ("*" + ((" " + m3) + ("\n" + "\n"))))))), Italic)
         == (x + a) + (b + (c + ("*" + ((" " + m3) + ("\n" + "\n")))))
  {
    var c := "\n- " + m2 + "\n";
    ExampleRegroup(x, a, b, c, m3);
    assert '\n' !in b by { assert forall k :: 0 <= k < |b| ==> b[k] == (x + a + b)[|x| + |a| + k]; }
    ItalicPreconditions(x, a, m2, m3);
    ItalicPassShape(x + a, b, c, " " + m3, "\n");
  }

  lemma ExampleRegroup(x: string, a: string, b: string, c: string, m3: string)
    ensures x + (a + ("*" + (b + ("*" + (c + ("*" + (" " + m3 + "\n\n")))))))
         == (x + a) + ("*" + (b + ("*" + (c + ("*" + ((" " + m3) + ("\n" + "\n")))))))
  {
    assert " " + m3 + "\n\n" == (" " + m3) + ("\n" + "\n");
  }

  lemma ItalicPreconditions(x: string, a: string, m2: string, m3: string)
    requires '*' !in x && '*' !in a && '*' !in m2 && '*' !in m3 && '\n' !in m3
    ensures '*' !in x + a && '*' !in "\n- " + m2 + "\n" && '*' !in " " + m3 && '\n' !in " " + m3
  {
  }

  lemma ExampleAfterItalic(x: string, a: string, b: string, m2: string, m3: string)
    requires x != [] && !IsBullet(x[0]) && '\n' !in x + a + b
    requires IsCleanLine(m2) && IsCleanLine(m3)
    ensures var c := "\n- " + m2 + "\n";
      StripBullets((x + a) + (b + (c + ("*" + ((" " + m3) + ("\n" + "\n"))))))
      == (x + a + b) + ("\n" + (m2 + ("\n" + (m3 + ("\n" + "\n")))))
  {
    var c := "\n- " + m2 + "\n";
    assert (x + a) + (b + (c + ("*" + ((" " + m3) + ("\n" + "\n")))))
        == (x + a + b) + ("\n" + ((['-'] + " " + m2) + ("\n" + ((['*'] + " " + m3) + ("\n" + "\n")))));
    assert (x + a + b)[0] == x[0];
    assert AllSpace(" ");
    BulletPassShape(x + a + b, '-', " ", m2, '*', " ", m3);
  }
}

=== FILE: strings.dfy ===
/**
 The Python `str` operations the deck engine relies on, modelled on `seq<char>`:
 `strip()` through its two halves over the `isspace` set, `split('\n')` and its inverse, the substring test `k in s`,
 `lower()` as far as it can affect a match against ASCII keywords, and `str(n)`
 for natural numbers.
 */
module Strings {

  /** `str.isspace()` on one character; the `\s` class of a `str` regex matches the same set. */
  predicate IsSpace(c: char) {
    || ('\t' <= c <= '\r')
    || ('\U{1C}' <= c <= ' ')
    || c == '\U{85}' || c == '\U{A0}' || c == '\U{1680}'
    || ('\U{2000}' <= c <= '\U{200A}')
    || c == '\U{2028}' || c == '\U{2029}' || c == '\U{202F}' || c == '\U{205F}' || c == '\U{3000}'
  }

  predicate AllSpace(s: string) {
    forall i :: 0 <= i < |s| ==> IsSpace(s[i])
  }

  /** A string that `str.strip()` leaves unchanged: empty, or non-space at both ends. */
  predicate IsStripped(s: string) {
    s == [] || (!IsSpace(s[0]) && !IsSpace(s[|s| - 1]))
  }

  /** The first character and the rest of a non-empty string, regrouped around a suffix. */
  lemma ConsRegroup(a: string, t: string)
    requires |a| > 0
    ensures [a[0]] + (a[1..] + t) == a + t
    ensures (a + t)[0] == a[0] && (a + t)[1..] == a[1..] + t
  {
  }

  /** A character missing from a non-empty string is missing from its first position and its rest. */
  lemma TailLacks(a: string, c: char)
    requires |a| > 0 && c !in a
    ensures a[0] != c && c !in a[1..]
  {
    assert a[0] in a;
  }

  /** A character missing from a string is missing from each of its suffixes. */
  lemma TailAfterLacks(a: string, k: nat, c: char)
    requires k <= |a| && c !in a
    ensures c !in a[k..]
  {
    forall m | 0 <= m < |a| - k
      ensures a[k..][m] != c
    {
      assert a[k..][m] == a[k + m] && a[k + m] in a;
    }
  }

  /** The leading half of `str.strip()`: the suffix left after dropping the leading `isspace` characters. */
  function TrimStart(s: string): (r: string)
    ensures |r| <= |s| && r == s[|s| - |r|..]
    ensures AllSpace(s[..|s| - |r|])
    ensures r == [] || !IsSpace(r[0])
  {
    if |s| > 0 && IsSpace(s[0]) then
      var r := TrimStart(s[1..]);
      assert s[1..][..|s| - 1 - |r|] == s[1..|s| - |r|];
      r
    else s
  }

  /** The trailing half of `str.strip()`: the prefix left after dropping the trailing `isspace` characters. */
  function TrimEnd(s: string): (r: string)
    ensures |r| <= |s| && r == s[..|r|]
    ensures AllSpace(s[|r|..])
    ensures r == [] || !IsSpace(r[|r| - 1])
  {
    if |s| > 0 && IsSpace(s[|s| - 1]) then
      var p := s[..|s| - 1];
      var r := TrimEnd(p);
      assert r == s[..|r|] by { assert p[..|r|] == s[..|r|]; }
      assert AllSpace(s[|r|..]) by {
        forall k | 0 <= k < |s| - |r|
          ensures IsSpace(s[|r|..][k])
        {
          if |r| + k < |s| - 1 { assert p[|r|..][k] == s[|r| + k]; }
        }
      }
      r
    else s
  }

  /** `s[i..i + |core|]` is `core`, with only whitespace before and after it. */
  ghost predicate SpaceFramed(s: string, core: string, i: int) {
    0 <= i && i + |core| <= |s| && s[i..i + |core|] == core
    && AllSpace(s[..i]) && AllSpace(s[i + |core|..])
  }

  /** `str.strip()`: the infix left after dropping whitespace at both ends. */
  function Strip(s: string): (r: string)
    ensures IsStripped(r)
    ensures exists i :: SpaceFramed(s, r, i)
  {
    var t := TrimStart(s);
    var r := TrimEnd(t);
    TrimsFrame(s, t, r);
    r
  }

  /** The two trims leave an infix of `s` framed by the whitespace they dropped. */
  lemma TrimsFrame(s: string, t: string, r: string)
    requires |t| <= |s| && t == s[|s| - |t|..] && AllSpace(s[..|s| - |t|])
    requires |r| <= |t| && r == t[..|r|] && AllSpace(t[|r|..])
    ensures SpaceFramed(s, r, |s| - |t|)
  {
    var i := |s| - |t|;
    assert s[i..i + |r|] == t[..|r|];
    assert s[i + |r|..] == t[|r|..];
  }

  /** A string is blank (Python-falsy after `strip()`) exactly when it is all whitespace. */
  lemma StripEmptyIff(s: string)
    ensures Strip(s) == [] <==> AllSpace(s)
  {
    var i :| SpaceFramed(s, Strip(s), i);
    if Strip(s) == [] {
      forall m | 0 <= m < |s|
        ensures IsSpace(s[m])
      {
        if m < i { assert s[..i][m] == s[m]; } else { assert s[i..][m - i] == s[m]; }
      }
    } else {
      assert s[i..i + |Strip(s)|][0] == s[i];
    }
  }

  /** Where a non-empty stripped core sits inside its whitespace frame: at the first and the last non-space. */
  lemma FramedEnds(s: string, core: string, i: int)
    requires core != [] && IsStripped(core) && SpaceFramed(s, core, i)
    ensures !IsSpace(s[i]) && forall m :: 0 <= m < i ==> IsSpace(s[m])
    ensures !IsSpace(s[i + |core| - 1]) && forall m :: i + |core| <= m < |s| ==> IsSpace(s[m])
  {
    assert s[i..i + |core|][0] == s[i];
    assert s[i..i + |core|][|core| - 1] == s[i + |core| - 1];
    assert forall m :: 0 <= m < i ==> s[..i][m] == s[m];
    assert forall m :: i + |core| <= m < |s| ==> s[i + |core|..][m - (i + |core|)] == s[m];
  }

  /**
   Strip's two guarantees pin its result down: the only stripped infix of `s`
   framed by whitespace on both sides is `Strip(s)`, so the contract of `Strip`
   is a complete specification of `str.strip()`.
   */
  lemma StripUnique(s: string, core: string, i: int)
    requires IsStripped(core) && SpaceFramed(s, core, i)
    ensures Strip(s) == core
  {
    var r := Strip(s);
    var j :| SpaceFramed(s, r, j);
    StripEmptyIff(s);
    if core == [] {
      forall m | 0 <= m < |s|
        ensures IsSpace(s[m])
      {
        if m < i { assert s[..i][m] == s[m]; } else { assert s[i..][m - i] == s[m]; }
      }
    } else if r != [] {
      FramedEnds(s, core, i);
      FramedEnds(s, r, j);
      SameFrame(s, core, i, r, j);
    }
  }

  /** Two non-empty stripped infixes framed by whitespace start and end at the same places. */
  lemma SameFrame(s: string, core: string, i: int, r: string, j: int)
    requires core != [] && IsStripped(core) && SpaceFramed(s, core, i)
    requires r != [] && IsStripped(r) && SpaceFramed(s, r, j)
    requires !IsSpace(s[i]) && forall m :: 0 <= m < i ==> IsSpace(s[m])
    requires !IsSpace(s[i + |core| - 1]) && forall m :: i + |core| <= m < |s| ==> IsSpace(s[m])
    requires !IsSpace(s[j]) && forall m :: 0 <= m < j ==> IsSpace(s[m])
    requires !IsSpace(s[j + |r| - 1]) && forall m :: j + |r| <= m < |s| ==> IsSpace(s[m])
    ensures core == r
  {
    assert i == j && |core| == |r|;
  }

  /** Stripping a stripped string changes nothing. */
  lemma StripIdempotent(s: string)
    ensures Strip(Strip(s)) == Strip(s)
  {
    var r := Strip(s);
    assert SpaceFramed(r, r, 0) by {
      assert r[..0] == [] && r[|r|..] == [] && r[0..|r|] == r;
    }
    StripUnique(r, r, 0);
  }

  // ---------------------------------------------------------------------------
  // str.split(sep) on a single-character separator, and its inverse

  /**
   `s.split(sep)` for a one-character separator: always at least one part (the
   empty string splits into `[""]`), and no part contains the separator.
   */
  function Split(s: string, sep: char): (parts: seq<string>)
    ensures |parts| >= 1
    ensures forall k :: 0 <= k < |parts| ==> sep !in parts[k]
    decreases |s|
  {
    if |s| == 0 then [[]]
    else
      var rest := Split(s[1..], sep);
      if s[0] == sep then [[]] + rest
      else [[s[0]] + rest[0]] + rest[1..]
  }

  /** `sep.join(parts)`. */
  function Join(parts: seq<string>, sep: char): string
    requires |parts| >= 1
    decreases |parts|
  {
    if |parts| == 1 then parts[0] else parts[0] + [sep] + Join(parts[1..], sep)
  }

  /** Joining the parts of a split gives back the string. */
  lemma {:induction false} JoinSplit(s: string, sep: char)
    ensures Join(Split(s, sep), sep) == s
    decreases |s|
  {
    if |s| > 0 {
      var rest := Split(s[1..], sep);
      JoinSplit(s[1..], sep);
      if s[0] == sep {
        assert Split(s, sep)[1..] == rest;
      } else if |rest| == 1 {
        assert Split(s, sep) == [[s[0]] + rest[0]];
      } else {
        var parts := Split(s, sep);
        assert parts[1..] == rest[1..];
        assert Join(rest, sep) == rest[0] + [sep] + Join(rest[1..], sep);
        assert s == [s[0]] + s[1..];
      }
    }
  }

  /** Splitting a string whose first separator-free run is `a` keeps `a` at the front of the first part. */
  lemma {:induction false} SplitPrepend(a: string, t: string, sep: char)
    requires sep !in a
    ensures Split(a + t, sep) == [a + Split(t, sep)[0]] + Split(t, sep)[1..]
    decreases |a|
  {
    if |a| > 0 {
      assert (a + t)[1..] == a[1..] + t;
      SplitPrepend(a[1..], t, sep);
      assert [a[0]] + (a[1..] + Split(t, sep)[0]) == a + Split(t, sep)[0];
    } else {
      var p := Split(t, sep);
      assert a + t == t && a + p[0] == p[0];
      assert [p[0]] + p[1..] == p;
    }
  }

  lemma JoinAppend(p: seq<string>, q: seq<string>, sep: char)
    requires |p| >= 1 && |q| >= 1
    ensures Join(p + q, sep) == Join(p, sep) + [sep] + Join(q, sep)
    decreases |p|
  {
    if |p| > 1 {
      assert (p + q)[1..] == p[1..] + q;
      JoinAppend(p[1..], q, sep);
    } else {
      assert (p + q)[1..] == q;
    }
  }

  /** Splitting a join of separator-free parts gives back the parts. */
  lemma {:induction false} SplitJoin(parts: seq<string>, sep: char)
    requires |parts| >= 1
    requires forall k :: 0 <= k < |parts| ==> sep !in parts[k]
    ensures Split(Join(parts, sep), sep) == parts
    decreases |parts|
  {
    if |parts| == 1 {
      SplitPrepend(parts[0], [], sep);
      assert Split([], sep) == [[]];
      assert parts[0] + [] == parts[0];
    } else {
      SplitJoin(parts[1..], sep);
      var t := [sep] + Join(parts[1..], sep);
      SplitPrepend(parts[0], t, sep);
      assert t[1..] == Join(parts[1..], sep);
      assert Split(t, sep) == [[]] + parts[1..];
      assert parts[0] + t == Join(parts, sep);
      assert parts[0] + [] == parts[0];
      assert ([[]] + parts[1..])[1..] == parts[1..];
      assert [parts[0]] + parts[1..] == parts;
    }
  }

  /** A separator splits the string into the parts of what is before it followed by the parts of what is after it. */
  lemma SplitAround(a: string, b: string, sep: char)
    ensures Split(a + [sep] + b, sep) == Split(a, sep) + Split(b, sep)
  {
    var p, q := Split(a, sep), Split(b, sep);
    JoinSplit(a, sep);
    JoinSplit(b, sep);
    JoinAppend(p, q, sep);
    SplitJoin(p + q, sep);
  }

  /** A string without the separator is a single part. */
  lemma SplitSingle(s: string, sep: char)
    requires sep !in s
    ensures Split(s, sep) == [s]
  {
    SplitJoin([s], sep);
  }

  // ---------------------------------------------------------------------------
  // The substring test `k in s`

  /** Characters `j..` of `k` agree with `s` from offset `i + j`. */
  predicate MatchesAt(s: string, k: string, i: nat, j: nat)
    decreases |k| - j
  {
    j >= |k| || (i + j < |s| && s[i + j] == k[j] && MatchesAt(s, k, i, j + 1))
  }

  /** `k` occurs in `s` at some offset `i` or later; scanned position by position. */
  predicate OccursFrom(s: string, k: string, i: nat)
    decreases |s| - i
  {
    i + |k| <= |s| && (MatchesAt(s, k, i, 0) || OccursFrom(s, k, i + 1))
  }

  /** Python's `k in s` for strings. */
  predicate Contains(s: string, k: string) {
    OccursFrom(s, k, 0)
  }

  /** `k` is the slice of `s` starting at `i`. */
  ghost predicate OccursAt(s: string, k: string, i: int) {
    0 <= i && i + |k| <= |s| && s[i..i + |k|] == k
  }

  lemma {:induction false} MatchesAtIff(s: string, k: string, i: nat, j: nat)
    requires j <= |k| && i + |k| <= |s|
    ensures MatchesAt(s, k, i, j) <==> s[i + j..i + |k|] == k[j..]
    decreases |k| - j
  {
    if j < |k| {
      MatchesAtIff(s, k, i, j + 1);
      assert s[i + j..i + |k|] == [s[i + j]] + s[i + j + 1..i + |k|];
      assert k[j..] == [k[j]] + k[j + 1..];
    }
  }

  lemma {:induction false} OccursFromIff(s: string, k: string, i: nat)
    ensures OccursFrom(s, k, i) <==> exists n :: i <= n && OccursAt(s, k, n)
    decreases |s| - i
  {
    if i + |k| <= |s| {
      MatchesAtIff(s, k, i, 0);
      OccursFromIff(s, k, i + 1);
      assert k[0..] == k;
      if MatchesAt(s, k, i, 0) { assert OccursAt(s, k, i); }
      if exists n :: i <= n && OccursAt(s, k, n) {
        var n :| i <= n && OccursAt(s, k, n);
        if n > i { assert i + 1 <= n; }
      }
    }
  }

  /** The substring test agrees with its declarative meaning. */
  lemma ContainsIff(s: string, k: string)
    ensures Contains(s, k) <==> exists n :: OccursAt(s, k, n)
  {
    OccursFromIff(s, k, 0);
  }

  /** A substring of a substring is a substring. */
  lemma ContainsTransitive(s: string, m: string, k: string)
    requires Contains(s, m) && Contains(m, k)
    ensures Contains(s, k)
  {
    ContainsIff(s, m);
    ContainsIff(m, k);
    var a :| OccursAt(s, m, a);
    var b :| OccursAt(m, k, b);
    forall x | 0 <= x < |k|
      ensures s[a + b + x] == k[x]
    {
      assert k[x] == m[b..b + |k|][x] == m[b + x];
      assert m[b + x] == s[a..a + |m|][b + x];
    }
    assert s[a + b..a + b + |k|] == k;
    assert OccursAt(s, k, a + b);
    ContainsIff(s, k);
  }

  // ---------------------------------------------------------------------------
  // str.lower(), as far as matching against ASCII keywords goes

  /**
   Lower-casing one character for keyword matching: `A`..`Z` map to `a`..`z`, and
   the two non-ASCII characters whose `str.lower()` contains ASCII letters
   (U+0130 to `i` + U+0307, U+212A KELVIN SIGN to `k`) map as Python maps them.
   Every other character is kept: Python may map it to other non-ASCII text,
   which cannot take part in a match of an ASCII keyword.
   */
  function LowerChar(c: char): (r: string)
    ensures |r| >= 1
    ensures forall m :: 0 <= m < |r| ==> !('A' <= r[m] <= 'Z')
  {
    if 'A' <= c <= 'Z' then [(c as int + 32) as char]
    else if c == '\U{130}' then "i\U{307}"
    else if c == '\U{212A}' then "k"
    else [c]
  }

  /** Lower-cases `s` from position `i` on. */
  function LowerFrom(s: string, i: nat): (r: string)
    ensures forall m :: 0 <= m < |r| ==> !('A' <= r[m] <= 'Z')
    decreases |s| - i
  {
    if i >= |s| then [] else LowerChar(s[i]) + LowerFrom(s, i + 1)
  }

  /** The title lower-casing used before keyword matching. */
  function Lower(s: string): (r: string)
    ensures |r| >= |s|
    ensures forall m :: 0 <= m < |r| ==> !('A' <= r[m] <= 'Z')
  {
    LowerLength(s, 0);
    LowerFrom(s, 0)
  }

  lemma {:induction false} LowerLength(s: string, i: nat)
    ensures |LowerFrom(s, i)| >= |s| - i
    decreases |s| - i
  {
    if i < |s| { LowerLength(s, i + 1); }
  }

  /** Characters that lower-casing changes. */
  predicate Folds(c: char) {
    ('A' <= c <= 'Z') || c == '\U{130}' || c == '\U{212A}'
  }

  lemma {:induction false} LowerFromFixed(s: string, i: nat)
    requires i <= |s|
    requires forall m :: i <= m < |s| ==> !Folds(s[m])
    ensures LowerFrom(s, i) == s[i..]
    decreases |s| - i
  {
    if i < |s| {
      LowerFromFixed(s, i + 1);
      assert s[i..] == [s[i]] + s[i + 1..];
    }
  }

  /** Lower-casing is idempotent: its result contains nothing it would change again. */
  lemma LowerIdempotent(s: string)
    ensures Lower(Lower(s)) == Lower(s)
  {
    var r := Lower(s);
    LowerFoldFree(s, 0);
    LowerFromFixed(r, 0);
  }

  lemma {:induction false} LowerFoldFree(s: string, i: nat)
    ensures forall m :: 0 <= m < |LowerFrom(s, i)| ==> !Folds(LowerFrom(s, i)[m])
    decreases |s| - i
  {
    if i < |s| {
      LowerFoldFree(s, i + 1);
      var h, t := LowerChar(s[i]), LowerFrom(s, i + 1);
      forall m | 0 <= m < |h + t|
        ensures !Folds((h + t)[m])
      {
        if m >= |h| { assert (h + t)[m] == t[m - |h|]; }
      }
    }
  }

  // ---------------------------------------------------------------------------
  // str(n) for natural numbers

  predicate IsDigit(c: char) {
    '0' <= c <= '9'
  }

  function DigitChar(d: nat): (c: char)
    requires d < 10
    ensures IsDigit(c) && c as int - '0' as int == d
  {
    ('0' as int + d) as char
  }

  /** `str(n)`: the decimal digits of `n`, without leading zeros. */
  function NatToString(n: nat): (r: string)
    ensures |r| >= 1
    ensures forall m :: 0 <= m < |r| ==> IsDigit(r[m])
    ensures r[0] == '0' ==> n == 0
    decreases n
  {
    if n < 10 then [DigitChar(n)] else NatToString(n / 10) + [DigitChar(n % 10)]
  }

  /** The number a string of decimal digits denotes (the `int(...)` of a digit string). */
  function DecimalValue(s: string): nat
    requires forall m :: 0 <= m < |s| ==> IsDigit(s[m])
  {
    if |s| == 0 then 0
    else
      var d := s[|s| - 1] as int - '0' as int;
      assert IsDigit(s[|s| - 1]);
      DecimalValue(s[..|s| - 1]) * 10 + d
  }

  /** Reading back the decimal text of `n` gives `n`. */
  lemma {:induction false} DecimalRoundTrip(n: nat)
    ensures DecimalValue(NatToString(n)) == n
    decreases n
  {
    if n >= 10 {
      DecimalRoundTrip(n / 10);
      var r := NatToString(n);
      assert r[..|r| - 1] == NatToString(n / 10);
    }
  }

  /** Distinct numbers have distinct decimal texts. */
  lemma NatToStringInjective(a: nat, b: nat)
    requires NatToString(a) == NatToString(b)
    ensures a == b
  {
    DecimalRoundTrip(a);
    DecimalRoundTrip(b);
  }

  // ---------------------------------------------------------------------------
  // First position of a character / str.replace

  /** The position of the first `c` in `s`, when there is one: the offset that `split('.', 1)[-1]` cuts after. */
  function IndexOf(s: string, c: char): (i: nat)
    requires c in s
    ensures i < |s| && s[i] == c && c !in s[..i]
  {
    if s[0] == c then 0
    else
      var i := IndexOf(s[1..], c);
      assert s[..i + 1] == [s[0]] + s[1..][..i];
      i + 1
  }

  /** `s.replace(a, b)` for single characters. */
  function ReplaceChar(s: string, a: char, b: char): (r: string)
    ensures |r| == |s|
    ensures forall m :: 0 <= m < |s| ==> r[m] == if s[m] == a then b else s[m]
  {
    if |s| == 0 then [] else [if s[0] == a then b else s[0]] + ReplaceChar(s[1..], a, b)
  }
}

=== FILE: themes.dfy ===
/**
 The colour themes of the deck generator: a fixed catalogue of five palettes
 keyed by theme id, and the resolution of a requested id, which silently falls
 back to `professional_blue` when the id is unknown.
 */
module Themes {

  /** A colour channel: `RGBColor` takes integers from 0 to 255. */
  newtype Channel = x: int | 0 <= x < 256

  datatype Rgb = Rgb(red: Channel, green: Channel, blue: Channel)

  /** One palette: a display name and the five colours a deck uses. */
  datatype Theme = Theme(
    name: string,
    bgStart: Rgb,
    bgEnd: Rgb,
    titleColor: Rgb,
    textColor: Rgb,
    accentColor: Rgb)

  const DefaultThemeId: string := "professional_blue"

  /** The theme ids in declaration order. */
  const ThemeIds: seq<string> :=
    ["professional_blue", "modern_dark", "vibrant_orange", "nature_green", "elegant_purple"]

  const ProfessionalBlue: Theme := Theme("Professional Blue",
    Rgb(227, 242, 253), Rgb(187, 222, 251), Rgb(25, 118, 210), Rgb(33, 33, 33), Rgb(66, 165, 245))
  const ModernDark: Theme := Theme("Modern Dark",
    Rgb(48, 48, 48), Rgb(33, 33, 33), Rgb(255, 255, 255), Rgb(220, 220, 220), Rgb(102, 126, 234))
  const VibrantOrange: Theme := Theme("Vibrant Orange",
    Rgb(255, 243, 224), Rgb(255, 224, 178), Rgb(230, 81, 0), Rgb(62, 39, 35), Rgb(255, 152, 0))
  const NatureGreen: Theme := Theme("Nature Green",
    Rgb(232, 245, 233), Rgb(200, 230, 201), Rgb(27, 94, 32), Rgb(33, 33, 33), Rgb(76, 175, 80))
  const ElegantPurple: Theme := Theme("Elegant Purple",
    Rgb(243, 229, 245), Rgb(225, 190, 231), Rgb(74, 20, 140), Rgb(33, 33, 33), Rgb(142, 36, 170))

  /** `THEMES`. */
  const Catalogue: map<string, Theme> := map[
    "professional_blue" := ProfessionalBlue,
    "modern_dark" := ModernDark,
    "vibrant_orange" := VibrantOrange,
    "nature_green" := NatureGreen,
    "elegant_purple" := ElegantPurple
  ]

  /** The id `generate_pptx` actually uses: the requested one if the catalogue knows it, else the default. */
  function EffectiveThemeId(id: string): (r: string)
    ensures r in Catalogue
    ensures id in Catalogue ==> r == id
    ensures id !in Catalogue ==> r == DefaultThemeId
  {
    if id in Catalogue then id else DefaultThemeId
  }

  /** `THEMES[theme]` after the fallback: always one of the five palettes. */
  function ResolveTheme(id: string): (t: Theme)
    ensures t in Catalogue.Values
    ensures t.name != []
  {
    Catalogue[EffectiveThemeId(id)]
  }

  /** The catalogue holds exactly the five declared ids. */
  lemma CatalogueKeys()
    ensures Catalogue.Keys == set i | i in ThemeIds
    ensures |ThemeIds| == 5 && DefaultThemeId in Catalogue
  {
  }

  /** No two ids share a palette: a resolved theme tells which id was used. */
  lemma PalettesDistinct(a: string, b: string)
    requires a in Catalogue && b in Catalogue && a != b
    ensures Catalogue[a] != Catalogue[b]
  {
  }

  /** A known id resolves to its own entry. */
  lemma KnownIdResolves(id: string)
    requires id in Catalogue
    ensures ResolveTheme(id) == Catalogue[id]
  {
  }

  /** The default id resolves to the Professional Blue palette. */
  lemma DefaultPalette()
    ensures ResolveTheme(DefaultThemeId) == ProfessionalBlue
  {
  }

  /**
   The palette is the default one exactly when the id is the default id or an
   id the catalogue does not know.
   */
  lemma ResolvesToDefaultIff(id: string)
    ensures ResolveTheme(id) == ProfessionalBlue <==> id == DefaultThemeId || id !in Catalogue
  {
    if id in Catalogue && id != DefaultThemeId {
      PalettesDistinct(id, DefaultThemeId);
    }
  }

  /** Resolving twice is resolving once. */
  lemma EffectiveIdIdempotent(id: string)
    ensures EffectiveThemeId(EffectiveThemeId(id)) == EffectiveThemeId(id)
    ensures ResolveTheme(EffectiveThemeId(id)) == ResolveTheme(id)
  {
  }
}

=== FILE: wrappers.dfy ===
/** The optional-value type shared by the other modules. */
module Wrappers {

  /** A value that may be absent: a lookup miss, a skipped text box, an unmatched search. */
  datatype Option<+T> = None | Some(value: T)
}
